=== FILE: README.md ===
# 7 Aromas order processing, modelled in Dafny

`app.py` is a small Streamlit tool for a candle workshop. It reads the Shopee sheet of orders waiting to be shipped. From that sheet it builds a production sheet: how many units of each scent to make in each product category. It also builds a stock (picking) summary by packaging type and a list of urgent items that ship today or tomorrow.

This project models the core of that tool:

- `processar_pedidos` (app.py:113-252): column resolution, the row loop and its filters, classification, the kit multiplier, the expansion of a row into scent items, and the three accumulators.
- `limpar_aroma` (app.py:91-111): the scent-name cleanup.
- The sidebar's mapping of the deadline choice to `dias_limite` (app.py:270-274).
- The flattening of the production ledger into (category, scent, quantity) rows for the spreadsheet export (app.py:313-316), and the total shown as "Total de Peças a Produzir" (app.py:303).

Modules, one per file:

- `options.dfy` (`Options`): the `Option` type.
- `text.dfy` (`Text`): the Python `str` operations the core uses.
  - `upper()` is exact on ASCII and Latin-1, where 'ß' becomes "SS".
  - `strip()` uses Python's whitespace set.
  - `in` on strings, `replace`, `startswith` and `endswith`.
- `scent.dfy` (`Scent`): `limpar_aroma`.
  - Each `re.sub` with `re.IGNORECASE` is modelled as a function that deletes the matches, scanning non-overlapping from the left.
  - `\b`, `\d`, `\s?` and the alternation of units are written out character by character; `\d` is taken as the ASCII digits (see Left out).
- `rules.dfy` (`Rules`): the per-row rules.
  - The eleven categories, with their label (`classe`), `css_class` and `tipo_estoque`.
  - The first-match-wins classification chain, the multiplier chain and the expansion rules.
  - The horizon mapping.
- `ledgers.dfy` (`Ledgers`): the two dict accumulators and the export flattening.
  - Python dicts keep insertion order, so a dict is its key sequence in insertion order together with a map.
- `orders.dfy` (`Orders`): the sheet, column resolution and a row-by-row specification.
  - The specification is `StepRow`, folded over the rows by `Run`; `Process` is the whole function.
  - The imperative procedure `ProcessOrders`, with the row loop's body `ProcessRow` and the inner loop `CreditItems`, is proved to compute `Process`.
- `properties.dfy` (`OrderProperties`): what the procedure guarantees.
  - Conservation of units between `producao`, `resumo_estoque` and the export.
  - Keys and css tags are never lost.
  - Excluded rows are invisible.
  - Urgency records, parse failures, and the error result.

Things the program does not compute itself are parameters of the model:

- `float(...)` of the quantity text: `parseQty`, returning `None` where `float` raises.
- `pd.to_datetime(..., dayfirst=True)` with the day count `(data_envio - hoje).days` and the `"%d/%m"` rendering: `parseDate`, returning `None` where parsing raises.
- The wall clock, `datetime.now()`, therefore only enters through the day count `parseDate` returns.

A cell is either empty (pandas NaN, whose `str()` is `"nan"`) or a value carried as the text `str()` gives for it.

Behaviour of `app.py` worth knowing:

- `limpar_aroma` is not idempotent. `Scent.NotIdempotent` shows an input where cleaning twice differs from cleaning once.
- A row whose quantity does not parse is not skipped. It is processed with quantity 0.0, which creates its ledger keys with nothing added (`OrderProperties.UnparseableQuantity`).
- Column resolution visits columns left to right and takes the first column whose upper-cased name contains any keyword of the field. Keywords are not tried in priority order. When two headers share the same upper-cased name, the later one is used, because `cols` is built by a dict comprehension.
- The cleanup's last steps run in the code's order:
  - strip;
  - drop one trailing ")";
  - one pass of `replace("  ", " ")`;
  - strip again.
- A row is listed as urgent when its day count is at most 1, and that includes dates in the past.

## Model

| member | source | states |
|---|---|---|
| Text.Strip | app.py:120 | `strip()` returns a text with no leading or trailing whitespace, made only of the input's characters; an already trimmed text is returned unchanged |
| Text.StripIsCut | app.py:120 | `strip()` returns a slice of its input, and everything before and after that slice is whitespace |
| Text.Upper | app.py:149-157 | `upper()` never shortens a text; `UpperAscii` gives it exactly on ASCII letters |
| Text.Contains | app.py:164-198 | definition of `p in s` (no contract of its own); `ContainsAt` (an occurrence makes it hold), its converse `ContainsWitness` (when it holds there is an occurrence) and `NotContainsMissingChar` state when it holds |
| Text.ReplaceAll | app.py:95 | every character of `replace`'s result comes from the text or from the replacement |
| Text.ReplaceAbsent | app.py:95 | `replace` of a pattern that does not occur leaves the text unchanged |
| Text.StripTrailingSpace | app.py:106 | stripping a trimmed non-empty text followed by one space gives the text back |
| Scent.IsWordChar | app.py:100 | definition of `\w` on Latin-1 and the four characters `re.IGNORECASE` relates to ASCII letters (no contract of its own); it decides `Boundary` |
| Scent.Boundary | app.py:100 | definition of `\b` at a position: exactly one neighbour is a word character (no contract of its own); `UnitTokenAt` ensures the token starts and ends on one |
| Scent.FoldEq | app.py:104 | definition of the `re.IGNORECASE` character comparison (no contract of its own); `VolumeTokenMatch` shows "ml" matching through it |
| Scent.RemoveFolded | app.py:99 | `re.sub` of a parenthesised literal, non-overlapping from the left: every character of the result occurs in the input; `RemoveFoldedDeletes` states it only deletes, order kept, and `ParenPatternsInert` that it changes nothing without '(' |
| Scent.RemoveFoldedDeletes | app.py:99 | removing a parenthesised literal only deletes characters, keeping the others in order |
| Scent.UnitTokenAt | app.py:100 | a token `\b\d+\s?(ml|L|Litro|un|unidades|kits|kit)\b` found at a position starts there with a digit on a word boundary and ends later, on a word boundary, inside the text |
| Scent.RemoveUnitTokens | app.py:100 | `re.sub` of the unit-token pattern: every character of the result occurs in the input; `RemoveUnitTokensDeletes`, `UnitTokensCopy` and `VolumeTokenRemoved` state more |
| Scent.RemoveUnitTokensDeletes | app.py:100 | removing unit tokens only deletes characters, keeping the others in order |
| Scent.RemoveDigits | app.py:101 | `re.sub(r"[0-9]", "", ...)` leaves no ASCII digit and brings no character in |
| Scent.RemoveDigitsDeletes | app.py:101 | removing the digits only deletes characters, keeping the others in order |
| Scent.RemoveChar | app.py:101 | `re.sub` of `,`, `\.` or `\+` leaves no occurrence of that character and brings no character in |
| Scent.RemoveCharDeletes | app.py:101 | removing one character only deletes characters, keeping the others in order |
| Scent.Sub | app.py:103-104 | every character of one `re.sub(p, "", ...)`'s result occurs in the input; after `[0-9]` no ASCII digit is left; after `,`, `\.` or `\+` that character is gone |
| Scent.SubDeletes | app.py:103-104 | each of the eight patterns only deletes characters: the result is the input with some characters removed, the rest in order |
| Scent.SubAll | app.py:98-104 | definition of the `for p in padroes` loop over the pattern list `Patterns` (no contract of its own); `SubAllDeletes`, `SubAllRemoves` and `SubAllSplit` state it |
| Scent.SubAllDeletes | app.py:98-104 | applying a whole pattern list only deletes characters, keeping the others in order |
| Scent.SubKeepsRest | app.py:101-104 | `[0-9]` keeps every other character as often as it occurred; `,`, `\.` and `\+` delete every occurrence of their character and nothing else |
| Scent.RemoveDigitsCounts | app.py:101 | removing the digits keeps each non-digit character's number of occurrences |
| Scent.RemoveCharCounts | app.py:101 | removing one character takes away all its occurrences and leaves every other count unchanged |
| Scent.SubAllRemoves | app.py:98-104 | after the whole pattern list no character is new, and no digit, ',', '.' or '+' is left |
| Scent.PatternsRemoveMarks | app.py:98-104 | the pattern list leaves no digit, ',', '.' or '+', whatever the input |
| Scent.Cleanup | app.py:95-110 | the cleaned text is trimmed and holds no digit, ',', '.' or '+' |
| Scent.Tidy | app.py:106-110 | the final strip, dropped ")" and space collapsing give a trimmed text |
| Scent.TidyKeepsNoMarks | app.py:106-110 | the final strip, dropped ")" and space collapsing bring no digit, ',', '.' or '+' back |
| Scent.CleanScent | app.py:91-111 | the scent name is never empty, is trimmed and holds no digit, ',', '.' or '+'; a non-text cell gives "Padrão / Sortido"; a non-empty cleanup is returned as is, an empty one gives "Padrão / Sortido" |
| Scent.FallbackIsClean | app.py:92 | the fallback name is itself non-empty, trimmed and free of digits and punctuation marks |
| Scent.PatternsOnPlain | app.py:98-104 | a text without digits, ',', '.', '+' and '(' is left unchanged by every pattern |
| Scent.ParenPatternsInert | app.py:99 | the three parenthesised unit annotations cannot match a text without '(' |
| Scent.MarkPatternsInert | app.py:101 | the digit, ',', '.' and '+' patterns leave a text without those characters unchanged |
| Scent.CleanupOfPlain | app.py:95-110 | on a trimmed text with no digits, punctuation, " e ", " E " or double space, the cleanup only drops a trailing ")" (and strips) |
| Scent.CleanNameUnchanged | app.py:91-111 | a clean scent name comes back from `limpar_aroma` unchanged |
| Scent.TrailingParenDropped | app.py:107 | a clean name followed by ")" loses the ")" |
| Scent.WordParenDropped | app.py:107 | a one-word clean name followed by ")" loses the ")" |
| Scent.NotIdempotent | app.py:106-110 | for a one-word name n, "n))" cleans to "n)", which cleans to "n": cleaning twice differs from cleaning once |
| Scent.VolumeNoConjunction | app.py:95 | "name 250ml" holds no " e " or " E ", so the conjunction replacement leaves it alone |
| Scent.VolumeTokenMatch | app.py:100 | in "name 250ml" the unit-token pattern matches exactly "250ml", from the digits to the end |
| Scent.VolumeTokenRemoved | app.py:100 | the unit-token pattern turns "name 250ml" into "name " |
| Scent.VolumePatterns | app.py:98-104 | the whole pattern list turns "name 250ml" into "name " |
| Scent.TidyWordSpace | app.py:106-110 | tidying a one-word name followed by a space gives the name |
| Scent.VolumeSuffixRemoved | app.py:91-111 | a volume after a one-word name ("Baunilha 250ml") is cut off, and the name is what remains |
| Scent.UnitTokensCopy | app.py:100 | the unit-token pass copies a stretch without digits unchanged |
| Scent.SubAllSplit | app.py:103-104 | applying the pattern list is applying its first k patterns, then the rest |
| Rules.Category.Label | app.py:160-198 | definition of `classe` per category (no contract of its own); `LabelsIdentifyCategories`, `LabelRead` and `LabelTests` state it |
| Rules.Category.Css | app.py:160-198 | definition of `css_class` per category (no contract of its own); `LabelsIdentifyCategories` states that a label fixes it |
| Rules.Category.StockType | app.py:160-198 | definition of `tipo_estoque` per category (no contract of its own); `LabelsIdentifyCategories` and `StockTypeRead` state that it identifies the category |
| Rules.LabelsIdentifyCategories | app.py:160-198 | different categories have different labels and different stock types, so a label always goes with the same css tag and stock type |
| Rules.LabelRead | app.py:165-197 | a category can be read back from its label |
| Rules.StockTypeRead | app.py:167-198 | a category can be read back from its stock type |
| Rules.LabelTests | app.py:209-222 | a label contains "SPRAY" exactly for the spray categories, and "ESCALDA" exactly for the foot soak |
| Rules.SprayLabelTests | app.py:176-198 | every spray label contains "SPRAY" and not "ESCALDA" |
| Rules.EscaldaLabelTests | app.py:173 | the foot-soak label contains "ESCALDA" and not "SPRAY" |
| Rules.OtherLabelTests | app.py:160-171 | the mini-candle, jar and catch-all labels contain neither "SPRAY" nor "ESCALDA" |
| Rules.Classify | app.py:160-198 | definition of the classification chain (no contract of its own); `ClassifyFirstMatch` states it |
| Rules.ClassifyFirstMatch | app.py:160-198 | each category is chosen exactly when its own test holds and no earlier test does; a row matching nothing goes to "99. OUTROS"; among sprays, each size is chosen exactly when its test holds and no earlier size test does (1L, 500, 250, 100, 60, 30, else the standard bottle) |
| Rules.UnitCount | app.py:202-204 | definition of `re.search(r"<n>\s?UN", ...)` (no contract of its own); `UnitCountAt` and `NoUnitCountWithout` state when it holds |
| Rules.Multiplier | app.py:200-209 | definition of the multiplier chain (no contract of its own); `MultiplierFirstMatch` states it |
| Rules.UnitCountAt | app.py:202-204 | the count written directly before "UN" anywhere in the text makes the unit pattern match |
| Rules.NoUnitCountWithout | app.py:202-204 | the unit pattern cannot match when a character of the count is missing from the text |
| Rules.MultiplierValues | app.py:200-209 | the multiplier is one of 1, 2, 3, 4, 5, 8, 10, 20; 2 only for sprays with "2UN"; 8 only with "2 KIT"; "20 UN" always gives 20 |
| Rules.MultiplierFirstMatch | app.py:200-209 | each multiplier is chosen exactly when its own test holds and no earlier one does, in the order 20, 10, 5 units, four-kit (8 with "2 KIT", else 4), three-kit, spray "2UN", else 1 |
| Rules.TenUnitsOutrankKit3 | app.py:202-208 | "10 UN" in the text outranks "KIT 3" in the SKU |
| Rules.CountsInsideLongerNumbers | app.py:202-204 | without a word boundary "120UN" counts as 20 units and "15 UN" as 5 |
| Rules.IsMixedJarKit | app.py:217 | definition of the jar-kit test (no contract of its own); `ExpandCases` and `MixedJarKitExample` state its effect |
| Rules.IsAssortedFootSoak | app.py:222 | definition of the assorted foot-soak test (no contract of its own); `ExpandCases`, `AssortedFootSoakExample` and `VariadoMatches` state its effect |
| Rules.Expand | app.py:214-230 | a row becomes one or three scent items, and the stock is credited exactly their sum |
| Rules.ExpandCases | app.py:216-230 | the jar kit gives Cereja & Avelã, Flor de Cerejeira and Brisa do Mar, each with the raw quantity, and three times it to stock; the assorted foot soak gives Lavanda, Alecrim and Camomila, each a third of the total; otherwise one item with the cleaned scent and the total; no negative credit from non-negative quantities |
| Rules.SumThree | app.py:223-225 | three items sum to their three quantities |
| Rules.MixedJarKitExample | app.py:217-218 | "V100-CFB" with 2 ordered gives Cereja & Avelã, Flor de Cerejeira and Brisa do Mar, 2 each |
| Rules.AssortedFootSoakExample | app.py:222-224 | an assorted foot soak of 6 gives Lavanda, Alecrim and Camomila, 2.0 each |
| Rules.VariadoMatches | app.py:222 | "Variado" upper-cased contains "VARIADO" |
| Rules.Horizon | app.py:271-274 | definition of `dias_limite` (no contract of its own); `HorizonValues` and the four option lemmas state it |
| Rules.HorizonValues | app.py:271-274 | the horizon is 1, 3, 7 or 9999 days, and 1 whenever the choice mentions "URGENTE" |
| Rules.HorizonNoLimit | app.py:261-271 | "TUDO (Sem limites)" sets no limit (9999 days) |
| Rules.HorizonUrgent | app.py:261-272 | the urgent choice sets 1 day |
| Rules.HorizonThreeDays | app.py:261-273 | the three-day choice sets 3 days |
| Rules.HorizonWeek | app.py:261-274 | the this-week choice sets 7 days |
| Ledgers.Ledger.Add | app.py:233-234 | definition of the dict update (no contract of its own, to keep the loop proofs small); `AddEffect` and `AddTotal` state it |
| Ledgers.AddEffect | app.py:233-234 | `if k not in d: d[k] = 0; d[k] += q` adds k if new (appended to the key order), raises k by q and changes no other key |
| Ledgers.AddTotal | app.py:233-234 | the same update keeps the dict well formed and raises its total by exactly q |
| Ledgers.Production.AddItem | app.py:238-240 | definition of one item's credit (no contract of its own, to keep the loop proofs small); `AddItemEffect`, `AddItemQty` and `AddItemTotal` state it |
| Ledgers.AddItemEffect | app.py:238-240 | crediting a scent creates the category (with the given css tag) only if absent, keeps an existing css tag, updates that category's scent dict and no other category |
| Ledgers.AddItemQty | app.py:238-240 | crediting a scent raises exactly that (category, scent) quantity by q, counting an absent one as 0, and leaves every other quantity as it was |
| Ledgers.AddItemTotal | app.py:238-240 | the same update keeps `producao` well formed and raises its total by exactly q |
| Ledgers.SumOverUpdate | app.py:232-240 | changing one key's value changes a sum over distinct keys by the difference |
| Ledgers.ExportRows | app.py:313-316 | definition of `export_data` (no contract of its own); `ExportExact` and `ExportTotal` state it |
| Ledgers.ExportTotal | app.py:303-316 | the export rows add up to the production total shown as "Total de Peças a Produzir" |
| Ledgers.ExportExact | app.py:314-316 | every export row is a (category, scent, quantity) of `producao`, and every scent of every category has its row |
| Ledgers.ScentRowsExact | app.py:315-316 | the rows of one category are exactly its scents with their quantities |
| Ledgers.CatRowsExact | app.py:314-316 | the rows of the categories are exactly their scents with their quantities |
| Ledgers.SumRowsAppend | app.py:313-316 | the sum over two batches of rows is the sum of their sums |
| Orders.Str | app.py:136-153 | definition of `str(cell)`, "nan" for an empty cell (no contract of its own); `NanIsCleanName` and `EmptyVariationIsNan` state its effect |
| Orders.Key | app.py:120-121 | definition of a header's key, stripped then upper-cased (no contract of its own); `ColumnLookup` states lookups by it |
| Orders.Keys | app.py:120-121 | definition of the header keys `[c.strip().upper() …]`; its ensures only unfold the comprehension (one key per header, in header order), and `ColumnLookup` states lookups by it |
| Orders.Urgent | app.py:243-245 | definition of `data_envio` present and `dias_para_envio <= 1` (no contract of its own); `AlertsShape` states its effect |
| Orders.Column | app.py:124-129 | a field's column, when found, is a header index; `ColumnLookup` states which one |
| Orders.FirstMatch | app.py:124-129 | `next(...)` gives the first column, left to right, whose key matches a keyword, or none if no column does |
| Orders.LastWithKey | app.py:121 | the dict comprehension keeps the last header with a given key |
| Orders.ColumnLookup | app.py:121-129 | a field resolves to nothing exactly when no header matches its keywords; otherwise to a matching header that no later header shares a key with, and whose key is that of the first matching header |
| Orders.Resolve | app.py:124-132 | resolution fails exactly when the SKU or the quantity column is missing; otherwise each field gets the column `Column` finds for its keywords, and every resolved column exists |
| Orders.Cancelled | app.py:136 | definition of the cancelled-status filter (no contract of its own); `Kept` and `RunKept` state its effect |
| Orders.ShipDateOf | app.py:139-146 | definition of `data_envio` (no contract of its own); `MissingDateNeverExcludes` states it |
| Orders.Excluded | app.py:136-146 | definition of the two `continue`s (no contract of its own); `Kept`, `RunKept` and `ExcludedRowInvisible` state their effect |
| Orders.Extract | app.py:149-157 | definition of the extracted row fields (no contract of its own); `NanIsCleanName`, `UnparseableQuantity` and `EmptyVariationIsNan` state it |
| Orders.TotalQty | app.py:211 | definition of `qtd_total` (no contract of its own); `ZeroOrder` states it |
| Orders.Credit | app.py:237-240 | definition of the inner loop's credits (no contract of its own); `CreditFrame` and `CreditTotal` state it |
| Orders.Alerts | app.py:242-250 | definition of the inner loop's urgency records (no contract of its own); `AlertsShape` states it |
| Orders.StepRow | app.py:134-250 | definition of one row's effect (no contract of its own); `RowFrame`, `RowTotals`, `UrgencyRecords` and `StepKeeps` state it |
| Orders.Run | app.py:134-250 | definition of the row loop (no contract of its own); `RunTotals`, `RunKept` and `RunKeeps` state it |
| Orders.Process | app.py:113-252 | definition of the whole function (no contract of its own); `MissingColumnsFail` and `Conservation` state it |
| Orders.CreditStock | app.py:232-234 | the stock update of a row is the dict update `Add` |
| Orders.CreditOne | app.py:238-240 | the production update of one item is `AddItem` |
| Orders.AlertOne | app.py:242-250 | one item is listed as urgent exactly when the date parsed and is at most a day away |
| Orders.CreditItems | app.py:237-250 | the inner loop credits the items in order, and appends their urgency records in order |
| Orders.ProcessRow | app.py:134-250 | one iteration of the row loop computes the specification `StepRow`: cancelled and too-late rows change nothing |
| Orders.ProcessOrders | app.py:113-252 | the procedure returns the error when a key column is missing, and otherwise the three accumulators of the rows folded in order |
| OrderProperties.CreditTotal | app.py:237-240 | crediting items keeps `producao` well formed and adds exactly their sum |
| OrderProperties.CreditFrame | app.py:237-240 | crediting items adds only their category and keeps its css tag once set; the category's scents become its old ones plus the items' scents, each scent's quantity (0 if absent) rises by the sum the items carry for it, a scent no item names keeps its quantity; other categories are left alone |
| OrderProperties.AlertsShape | app.py:242-250 | no urgency record without an urgent date; with one, exactly one record per item, in order, with date, "category - scent" and quantity |
| OrderProperties.RowFrame | app.py:232-240 | a processed row adds its stock type and category (with its css tag only if new) and raises the stock type by the row's stock quantity; in that category it adds the row's scents, raises each by the sum the row's items carry for it and leaves every other scent's quantity alone; every other stock type and category is unchanged |
| OrderProperties.RowTotals | app.py:232-240 | a processed row raises both the stock total and the production total by the same amount |
| OrderProperties.UrgencyRecords | app.py:139-250 | the urgency list only grows; an excluded row adds nothing; a processed row adds one record per item exactly when its date parsed and is at most a day away |
| OrderProperties.MissingDateNeverExcludes | app.py:139-146 | without a usable ship date a row is skipped only when cancelled, and is never urgent |
| OrderProperties.ZeroOrder | app.py:211-230 | a zero quantity credits zero everywhere |
| OrderProperties.UnparseableQuantity | app.py:152-155 | an unparseable quantity becomes 0.0; the row is still processed, creates its keys and leaves both totals unchanged |
| OrderProperties.NanIsCleanName | app.py:151-228 | an empty variation cell reads as "nan", which the cleanup keeps as scent "nan" |
| OrderProperties.NanIsNoKit | app.py:217-222 | "nan" triggers neither the jar kit nor the assorted foot soak |
| OrderProperties.EmptyVariationIsNan | app.py:151-230 | a row with an empty variation cell is credited under scent "nan" unless its SKU is the jar kit |
| OrderProperties.Kept | app.py:136-144 | the rows kept are exactly the rows that are neither cancelled nor beyond the horizon |
| OrderProperties.RunTotals | app.py:134-240 | over the rows, both totals grow by the same sum of stock quantities of the processed rows |
| OrderProperties.RunKept | app.py:136-144 | the result is the same as processing only the kept rows |
| OrderProperties.ExcludedRowInvisible | app.py:136-144 | removing an excluded row anywhere changes nothing |
| OrderProperties.StepTagsAgree | app.py:238 | a row keeps every category's css tag the one its label goes with |
| OrderProperties.StepKeeps | app.py:232-250 | one row removes no stock type, category or scent, changes no css tag and only appends urgency records |
| OrderProperties.RunKeeps | app.py:134-250 | over any rows: keys are never removed, css tags never change once set and always match their label, the urgency list only grows |
| OrderProperties.MissingColumnsFail | app.py:124-132 | the error message is returned exactly when no header names an SKU column or none names a quantity column |
| OrderProperties.RunFromEmpty | app.py:114-250 | from empty accumulators the stock total, the production total and the export total are all the processed units |
| OrderProperties.Conservation | app.py:113-303 | on success the two ledgers are well formed, total the same units, the export adds up to them, and every css tag matches its category |

## Left out

- The Streamlit page is not modelled: the styling, sidebar, upload, metrics, cards, charts and the urgency expander (app.py outside the lines above).
- The file reading is not modelled: `read_csv` with its two separators and the `read_excel` fallback. Writing the Excel file is not modelled either; only the rows handed to it are.
- `float(...)` and `pd.to_datetime(..., dayfirst=True)` are parameters of the model. Their text formats and the clock are not modelled.
- Quantities are exact reals: floating-point rounding of `qtd * mult`, of `/ 3` and of the sums is not modelled.
- `float("nan")` or `float("inf")` parsed from a quantity text is not modelled; such a result is assumed to be an ordinary real.
- Dates are not modelled in detail:
  - a date that parses to `NaT`. The outcome would be the same as with no date: the day count at line 244 is NaN, `NaN <= 1` is false, so no urgency record is appended, and `diff > dias_limite` at line 144 never excludes the row;
  - timezone-aware dates, whose subtraction from the naive `hoje` raises after `data_envio` has been set;
  - a date that parses where the day count then raises.
- Headers are assumed to be distinct after `strip()` (line 120). " SKU" and "SKU" become one duplicated column name, and `row[col]` then returns a Series in pandas, whereas `Key`/`LastWithKey` pick the later header. Non-string headers make `c.strip()` raise.
- `str()` of a numeric cell (e.g. `3.0` for a quantity read as a float) is not derived from the cell's type: a cell is given as the text `str()` renders.
- `\d` in the unit-token pattern (app.py:100) is modelled as the ASCII digits 0-9, while Python's `\d` also matches other Unicode decimal digits (e.g. full-width "２５０ml"); such a volume is not removed by that pattern in the model, though `[0-9]` (app.py:101) behaves the same in both.
- Scent.Sub: every pattern is proved to delete characters and keep the rest in order (`SubDeletes`), but for the three parenthesised patterns and the unit-token pattern no lemma states in general which characters go; `VolumeTokenMatch`, `ParenPatternsInert` and `UnitTokensCopy` state it in particular cases. For the digit and one-character patterns `SubKeepsRest` counts what survives, but no lemma states that the survivors are exactly the other characters in their order.
- Unicode case mapping beyond Latin-1 is not modelled: `Upper` leaves such characters unchanged. `\w` beyond Latin-1 counts only the four letters `re.IGNORECASE` relates to ASCII; any other character above U+00FF is treated as a non-word character.
- `Orders.At`: a row shorter than the header row reads as empty cells; pandas never produces such a row.
- The display sorting of categories and scents is not modelled.

=== FILE: ledgers.dfy ===
/** The two accumulators of processar_pedidos (app.py): `resumo_estoque`, a dict from stock
    type to units, and `producao`, a dict from category to its css tag and a dict from
    scent to units. Python dicts remember insertion order, so each is modelled as its keys
    in insertion order together with a map. Also the flattening of `producao` into
    (category, scent, quantity) rows for the spreadsheet export. */
module Ledgers {

  ghost predicate Distinct(keys: seq<string>) {
    forall i, j :: 0 <= i < j < |keys| ==> keys[i] != keys[j]
  }

  /** The sum of w over the values of m, visited in the order of keys. */
  function SumOver<V>(keys: seq<string>, m: map<string, V>, w: V -> real): real
  {
    if keys == [] then 0.0
    else (if keys[0] in m then w(m[keys[0]]) else 0.0) + SumOver(keys[1..], m, w)
  }

  /** Changing a value under a key outside the visited keys does not change the sum. */
  lemma {:induction false} SumOverOutside<V>(keys: seq<string>, m: map<string, V>, w: V -> real, k: string, v: V)
    requires k !in keys
    ensures SumOver(keys, m[k := v], w) == SumOver(keys, m, w)
  {
    if keys != [] {
      SumOverOutside(keys[1..], m, w, k, v);
    }
  }

  /** Visiting one more key adds its value. */
  lemma {:induction false} SumOverAppend<V>(keys: seq<string>, m: map<string, V>, w: V -> real, k: string)
    ensures SumOver(keys + [k], m, w) == SumOver(keys, m, w) + (if k in m then w(m[k]) else 0.0)
  {
    if keys != [] {
      assert (keys + [k])[1..] == keys[1..] + [k];
      SumOverAppend(keys[1..], m, w, k);
    }
  }

  /** Replacing the value of a visited key (visited once) changes the sum by the difference. */
  lemma {:induction false} SumOverUpdate<V>(keys: seq<string>, m: map<string, V>, w: V -> real, k: string, v: V)
    requires Distinct(keys) && k in keys && k in m
    ensures SumOver(keys, m[k := v], w) == SumOver(keys, m, w) - w(m[k]) + w(v)
  {
    if keys[0] == k {
      assert k !in keys[1..] by {
        forall i | 0 <= i < |keys[1..]|
          ensures keys[1..][i] != k
        {
          assert keys[i + 1] != keys[0];
        }
      }
      SumOverOutside(keys[1..], m, w, k, v);
    } else {
      SumOverUpdate(keys[1..], m, w, k, v);
    }
  }

  /** The weight of a plain quantity: itself. */
  function Identity(x: real): real { x }

  /** A dict from names to accumulated quantities. */
  datatype Ledger = Ledger(keys: seq<string>, qty: map<string, real>) {

    /** The keys are the map's keys, each listed once. */
    ghost predicate Valid() {
      Distinct(keys) && forall k :: k in qty <==> k in keys
    }

    /** The sum of all quantities. */
    function Total(): real {
      SumOver(keys, qty, Identity)
    }

    /** `if k not in d: d[k] = 0` followed by `d[k] += q`. */
    function Add(k: string, q: real): Ledger
    {
      var d := if k in qty then this else Ledger(keys + [k], qty[k := 0.0]);
      Ledger(d.keys, d.qty[k := d.qty[k] + q])
    }
  }

  const EmptyLedger: Ledger := Ledger([], map[])

  /** Adding touches only the key added to: it is present afterwards, holds its old
      quantity (0 if new) plus q, and every other key keeps its quantity. */
  lemma AddEffect(l: Ledger, k: string, q: real)
    ensures l.Add(k, q).qty.Keys == l.qty.Keys + {k}
    ensures l.Add(k, q).qty[k] == (if k in l.qty then l.qty[k] else 0.0) + q
    ensures forall j :: j in l.qty && j != k ==> l.Add(k, q).qty[j] == l.qty[j]
    ensures k in l.qty ==> l.Add(k, q).keys == l.keys
    ensures k !in l.qty ==> l.Add(k, q).keys == l.keys + [k]
  {
  }

  /** Adding q under any key keeps the ledger well formed and adds exactly q to its total. */
  lemma AddTotal(l: Ledger, k: string, q: real)
    requires l.Valid()
    ensures l.Add(k, q).Valid()
    ensures l.Add(k, q).Total() == l.Total() + q
  {
    if k in l.qty {
      SumOverUpdate(l.keys, l.qty, Identity, k, l.qty[k] + q);
    } else {
      var d := Ledger(l.keys + [k], l.qty[k := 0.0]);
      SumOverOutside(l.keys, l.qty, Identity, k, 0.0);
      SumOverAppend(l.keys, l.qty[k := 0.0], Identity, k);
      assert d.Valid();
      SumOverUpdate(d.keys, d.qty, Identity, k, q);
    }
  }

  /** One entry of `producao`: {'itens': {...}, 'css': ...}. */
  datatype CatEntry = CatEntry(itens: Ledger, css: string)

  function EntryTotal(e: CatEntry): real { e.itens.Total() }

  /** The production ledger `producao`. */
  datatype Production = Production(keys: seq<string>, cats: map<string, CatEntry>) {

    ghost predicate Valid() {
      && Distinct(keys)
      && (forall k :: k in cats <==> k in keys)
      && (forall k :: k in cats ==> cats[k].itens.Valid())
    }

    /** The sum of every scent's quantity over every category. */
    function Total(): real {
      SumOver(keys, cats, EntryTotal)
    }

    /** The quantity recorded for a scent of a category, 0 when either is absent. */
    function Qty(classe: string, aroma: string): real {
      if classe in cats && aroma in cats[classe].itens.qty then cats[classe].itens.qty[aroma] else 0.0
    }

    /** The body of the inner loop over the row's items: create the category (with its
        css tag) and the scent if absent, then add q. */
    function AddItem(classe: string, css: string, aroma: string, q: real): Production
    {
      var d := if classe in cats then this
               else Production(keys + [classe], cats[classe := CatEntry(EmptyLedger, css)]);
      var e := d.cats[classe];
      Production(d.keys, d.cats[classe := e.(itens := e.itens.Add(aroma, q))])
    }
  }

  const EmptyProduction: Production := Production([], map[])

  /** Adding an item touches only its category: the category is present afterwards, keeps
      the css tag it was created with, and its scents are updated as by Ledger.Add; every
      other category is unchanged and no category is removed. */
  lemma AddItemEffect(p: Production, classe: string, css: string, aroma: string, q: real)
    ensures p.AddItem(classe, css, aroma, q).cats.Keys == p.cats.Keys + {classe}
    ensures p.AddItem(classe, css, aroma, q).cats[classe].css == (if classe in p.cats then p.cats[classe].css else css)
    ensures p.AddItem(classe, css, aroma, q).cats[classe].itens
         == (if classe in p.cats then p.cats[classe].itens else EmptyLedger).Add(aroma, q)
    ensures forall c :: c in p.cats && c != classe ==> p.AddItem(classe, css, aroma, q).cats[c] == p.cats[c]
    ensures classe in p.cats ==> p.AddItem(classe, css, aroma, q).keys == p.keys
    ensures classe !in p.cats ==> p.AddItem(classe, css, aroma, q).keys == p.keys + [classe]
  {
  }

  /** Adding an item raises exactly its scent of its category by q and leaves every other
      (category, scent) quantity as it was. */
  lemma AddItemQty(p: Production, classe: string, css: string, aroma: string, q: real)
    ensures forall a ::
      p.AddItem(classe, css, aroma, q).Qty(classe, a) == p.Qty(classe, a) + (if a == aroma then q else 0.0)
    ensures forall c, a :: c != classe ==> p.AddItem(classe, css, aroma, q).Qty(c, a) == p.Qty(c, a)
  {
    AddItemEffect(p, classe, css, aroma, q);
    AddEffect(if classe in p.cats then p.cats[classe].itens else EmptyLedger, aroma, q);
  }

  /** Creating an empty category keeps `producao` well formed and its total unchanged. */
  lemma NewCategory(p: Production, classe: string, css: string)
    requires p.Valid() && classe !in p.cats
    ensures Production(p.keys + [classe], p.cats[classe := CatEntry(EmptyLedger, css)]).Valid()
    ensures Production(p.keys + [classe], p.cats[classe := CatEntry(EmptyLedger, css)]).Total() == p.Total()
  {
    SumOverOutside(p.keys, p.cats, EntryTotal, classe, CatEntry(EmptyLedger, css));
    SumOverAppend(p.keys, p.cats[classe := CatEntry(EmptyLedger, css)], EntryTotal, classe);
    assert EmptyLedger.Total() == 0.0;
  }

  /** Adding q for one scent keeps `producao` well formed and adds exactly q to its total. */
  lemma AddItemTotal(p: Production, classe: string, css: string, aroma: string, q: real)
    requires p.Valid()
    ensures p.AddItem(classe, css, aroma, q).Valid()
    ensures p.AddItem(classe, css, aroma, q).Total() == p.Total() + q
  {
    var d := if classe in p.cats then p
             else Production(p.keys + [classe], p.cats[classe := CatEntry(EmptyLedger, css)]);
    if classe !in p.cats {
      NewCategory(p, classe, css);
    }
    var e := d.cats[classe];
    AddTotal(e.itens, aroma, q);
    SumOverUpdate(d.keys, d.cats, EntryTotal, classe, e.(itens := e.itens.Add(aroma, q)));
  }

  // ---------------------------------------------------------------------------------
  // The export of `producao` as rows

  /** One row of the exported sheet. */
  datatype ExportRow = ExportRow(categoria: string, aroma: string, qtd: real)

  /** The rows of one category: its scents in insertion order. */
  function ScentRows(cat: string, keys: seq<string>, qty: map<string, real>): seq<ExportRow>
  {
    if keys == [] then []
    else (if keys[0] in qty then [ExportRow(cat, keys[0], qty[keys[0]])] else [])
         + ScentRows(cat, keys[1..], qty)
  }

  /** The rows of the categories in keys, in insertion order. */
  function CatRows(keys: seq<string>, cats: map<string, CatEntry>): seq<ExportRow>
  {
    if keys == [] then []
    else (if keys[0] in cats then ScentRows(keys[0], cats[keys[0]].itens.keys, cats[keys[0]].itens.qty) else [])
         + CatRows(keys[1..], cats)
  }

  /** `export_data`: every (category, scent, quantity) of `producao`. */
  function ExportRows(p: Production): seq<ExportRow>
  {
    CatRows(p.keys, p.cats)
  }

  function SumRows(rows: seq<ExportRow>): real {
    if rows == [] then 0.0 else rows[0].qtd + SumRows(rows[1..])
  }

  lemma {:induction false} SumRowsAppend(a: seq<ExportRow>, b: seq<ExportRow>)
    ensures SumRows(a + b) == SumRows(a) + SumRows(b)
  {
    if a == [] {
      assert a + b == b;
    } else {
      assert (a + b)[1..] == a[1..] + b;
      SumRowsAppend(a[1..], b);
    }
  }

  lemma {:induction false} ScentRowsSum(cat: string, keys: seq<string>, qty: map<string, real>)
    ensures SumRows(ScentRows(cat, keys, qty)) == SumOver(keys, qty, Identity)
  {
    if keys != [] {
      var head := if keys[0] in qty then [ExportRow(cat, keys[0], qty[keys[0]])] else [];
      SumRowsAppend(head, ScentRows(cat, keys[1..], qty));
      ScentRowsSum(cat, keys[1..], qty);
    }
  }

  lemma {:induction false} CatRowsSum(keys: seq<string>, cats: map<string, CatEntry>)
    ensures SumRows(CatRows(keys, cats)) == SumOver(keys, cats, EntryTotal)
  {
    if keys != [] {
      var k := keys[0];
      var head := if k in cats then ScentRows(k, cats[k].itens.keys, cats[k].itens.qty) else [];
      SumRowsAppend(head, CatRows(keys[1..], cats));
      if k in cats {
        ScentRowsSum(k, cats[k].itens.keys, cats[k].itens.qty);
      }
      CatRowsSum(keys[1..], cats);
    }
  }

  /** The exported quantities add up to the total of `producao`. */
  lemma ExportTotal(p: Production)
    ensures SumRows(ExportRows(p)) == p.Total()
  {
    CatRowsSum(p.keys, p.cats);
  }

  lemma {:induction false} ScentRowsExact(cat: string, keys: seq<string>, qty: map<string, real>)
    ensures forall r <- ScentRows(cat, keys, qty) :: r.categoria == cat && r.aroma in qty && r.qtd == qty[r.aroma]
    ensures forall a :: a in keys && a in qty ==> ExportRow(cat, a, qty[a]) in ScentRows(cat, keys, qty)
  {
    if keys != [] {
      ScentRowsExact(cat, keys[1..], qty);
    }
  }

  lemma {:induction false} CatRowsExact(keys: seq<string>, cats: map<string, CatEntry>)
    ensures forall r <- CatRows(keys, cats) ::
      r.categoria in cats && r.aroma in cats[r.categoria].itens.qty
      && r.qtd == cats[r.categoria].itens.qty[r.aroma]
    ensures forall c, a :: c in keys && c in cats && a in cats[c].itens.keys && a in cats[c].itens.qty ==>
      ExportRow(c, a, cats[c].itens.qty[a]) in CatRows(keys, cats)
  {
    if keys != [] {
      var k := keys[0];
      if k in cats {
        ScentRowsExact(k, cats[k].itens.keys, cats[k].itens.qty);
      }
      CatRowsExact(keys[1..], cats);
    }
  }

  /** The export holds exactly the (category, scent, quantity) entries of `producao`. */
  lemma ExportExact(p: Production)
    requires p.Valid()
    ensures forall r <- ExportRows(p) ::
      r.categoria in p.cats && r.aroma in p.cats[r.categoria].itens.qty
      && r.qtd == p.cats[r.categoria].itens.qty[r.aroma]
    ensures forall c, a :: c in p.cats && a in p.cats[c].itens.qty ==>
      ExportRow(c, a, p.cats[c].itens.qty[a]) in ExportRows(p)
  {
    CatRowsExact(p.keys, p.cats);
  }
}

=== FILE: options.dfy ===
/** The conventional Some/None datatype, used wherever the source works with a value
    that may be absent (a column that was not found, a cell that did not parse). */
module Options {

  datatype Option<+T> = None | Some(value: T) {

    /** The value in Some, or the given default when None. */
    function GetOr(default: T): T {
      match this
      case Some(v) => v
      case None => default
    }
  }
}

=== FILE: orders.dfy ===
/** processar_pedidos (app.py): resolves the key columns of a Shopee order sheet by
    keyword, then walks its rows, skipping cancelled and out-of-horizon orders, and credits
    every other row to the production ledger, the stock summary and the urgency list. */
module Orders {
  import opened Options
  import opened Text
  import opened Scent
  import opened Rules
  import opened Ledgers

  // ---------------------------------------------------------------------------------
  // The sheet

  /** A cell of the sheet: empty, or a value rendered as `str()` renders it. */
  datatype Cell = Null | Val(text: string)

  /** `str(cell)`: an empty cell reads as "nan". */
  function Str(c: Cell): string {
    match c
    case Null => "nan"
    case Val(t) => t
  }

  /** The sheet: its header row and its data rows, one cell per column. */
  datatype Table = Table(headers: seq<string>, rows: seq<seq<Cell>>)

  /** The cell of a row under column j (a row of the sheet has one cell per column). */
  function At(row: seq<Cell>, j: nat): Cell {
    if j < |row| then row[j] else Null
  }

  // ---------------------------------------------------------------------------------
  // Column resolution

  /** The key under which `cols` files a header: stripped, then upper-cased. */
  function Key(h: string): string {
    Upper(Strip(h))
  }

  predicate MatchesAny(k: string, kws: seq<string>) {
    exists w <- kws :: Contains(k, w)
  }

  /** The keys of all headers, column by column. */
  function Keys(headers: seq<string>): (ks: seq<string>)
    ensures |ks| == |headers| && forall i :: 0 <= i < |headers| ==> ks[i] == Key(headers[i])
  {
    seq(|headers|, i requires 0 <= i < |headers| => Key(headers[i]))
  }

  /** The first key at or after i that contains one of the keywords. */
  function FirstMatch(ks: seq<string>, kws: seq<string>, i: nat): (r: Option<nat>)
    requires i <= |ks|
    ensures r.Some? ==> i <= r.value < |ks| && MatchesAny(ks[r.value], kws)
    ensures r.Some? ==> forall k :: i <= k < r.value ==> !MatchesAny(ks[k], kws)
    ensures r.None? ==> forall k :: i <= k < |ks| ==> !MatchesAny(ks[k], kws)
    decreases |ks| - i
  {
    if i == |ks| then None
    else if MatchesAny(ks[i], kws) then Some(i)
    else FirstMatch(ks, kws, i + 1)
  }

  /** The last position before n holding the given key. */
  function LastWithKey(ks: seq<string>, key: string, n: nat): (r: Option<nat>)
    requires n <= |ks|
    ensures r.Some? ==> r.value < n && ks[r.value] == key
    ensures r.Some? ==> forall k :: r.value < k < n ==> ks[k] != key
    ensures r.None? ==> forall k :: 0 <= k < n ==> ks[k] != key
  {
    if n == 0 then None
    else if ks[n - 1] == key then Some(n - 1)
    else LastWithKey(ks, key, n - 1)
  }

  /** `next((cols[c] for c in cols if ...), None)`: the keys of `cols` are visited in order
      of first appearance, and `cols[c]` is the last header filed under c. */
  function Column(headers: seq<string>, kws: seq<string>): (r: Option<nat>)
    ensures r.Some? ==> r.value < |headers|
  {
    var ks := Keys(headers);
    match FirstMatch(ks, kws, 0)
    case None => None
    case Some(i) => LastWithKey(ks, ks[i], |ks|)
  }

  /** The column found is None exactly when no header's key contains a keyword. Otherwise
      its key contains one, no later header has the same key, and that key is the key of
      the first header that contains a keyword. */
  lemma ColumnLookup(headers: seq<string>, kws: seq<string>)
    ensures Column(headers, kws).None? <==> forall k :: 0 <= k < |headers| ==> !MatchesAny(Key(headers[k]), kws)
    ensures Column(headers, kws).Some? ==>
      var r := Column(headers, kws).value;
      && MatchesAny(Key(headers[r]), kws)
      && (forall k :: r < k < |headers| ==> Key(headers[k]) != Key(headers[r]))
      && exists i :: 0 <= i <= r && Key(headers[i]) == Key(headers[r])
                     && forall k :: 0 <= k < i ==> !MatchesAny(Key(headers[k]), kws)
  {
    var ks := Keys(headers);
    var f := FirstMatch(ks, kws, 0);
    if f.Some? {
      var i := f.value;
      var l := LastWithKey(ks, ks[i], |ks|);
      assert l.Some? && i <= l.value;
      assert Key(headers[i]) == Key(headers[l.value]);
    }
  }

  const SkuWords: seq<string> := ["SKU"]
  const VariationWords: seq<string> := ["VARIAÇÃO", "VARIATION"]
  const NameWords: seq<string> := ["NOME DO PRODUTO", "PRODUCT NAME"]
  const QuantityWords: seq<string> := ["QUANTIDADE", "QUANTITY"]
  const DateWords: seq<string> := ["ENVIO", "SHIP"]
  const StatusWords: seq<string> := ["STATUS"]

  /** The resolved columns; SKU and quantity are mandatory. */
  datatype Columns = Columns(sku: nat, variacao: Option<nat>, nome: Option<nat>, qtd: nat,
                             data: Option<nat>, status: Option<nat>)

  ghost predicate InRange(o: Option<nat>, n: nat) {
    o.Some? ==> o.value < n
  }

  function Resolve(headers: seq<string>): (r: Option<Columns>)
    ensures r.None? <==> Column(headers, SkuWords).None? || Column(headers, QuantityWords).None?
    ensures r.Some? ==> r.value.sku < |headers| && r.value.qtd < |headers|
    ensures r.Some? ==> r.value == Columns(Column(headers, SkuWords).value,
      Column(headers, VariationWords), Column(headers, NameWords),
      Column(headers, QuantityWords).value, Column(headers, DateWords),
      Column(headers, StatusWords))
    ensures r.Some? ==> InRange(r.value.variacao, |headers|) && InRange(r.value.nome, |headers|)
                        && InRange(r.value.data, |headers|) && InRange(r.value.status, |headers|)
  {
    var sku := Column(headers, SkuWords);
    var qtd := Column(headers, QuantityWords);
    if sku.None? || qtd.None? then None
    else Some(Columns(sku.value, Column(headers, VariationWords), Column(headers, NameWords), qtd.value,
                      Column(headers, DateWords), Column(headers, StatusWords)))
  }

  const MissingColumns: string :=
    "Erro: Não encontrei colunas de SKU ou Quantidade. Verifique se é o arquivo correto da Shopee."

  // ---------------------------------------------------------------------------------
  // One row

  /** A parsed ship date: whole days from now to the date, and its "%d/%m" rendering. */
  datatype ShipDate = ShipDate(daysAhead: int, dayMonth: string)

  /** Everything a row is processed with: the columns, the horizon `dias_limite`, and the
      two parsers of the run (float() of a text, and pd.to_datetime with the day-count
      from now), each None where it raises. */
  datatype Config = Config(cols: Columns, dias: int,
                           parseQty: string -> Option<real>,
                           parseDate: string -> Option<ShipDate>)

  predicate Cancelled(cfg: Config, row: seq<Cell>) {
    cfg.cols.status.Some? && Upper(Str(At(row, cfg.cols.status.value))) == "CANCELADO"
  }

  /** `data_envio`: parsed only from a present, non-empty cell; a failed parse leaves None. */
  function ShipDateOf(cfg: Config, row: seq<Cell>): Option<ShipDate> {
    if cfg.cols.data.Some? && At(row, cfg.cols.data.value).Val? then
      cfg.parseDate(At(row, cfg.cols.data.value).text)
    else None
  }

  /** The row is skipped: cancelled, or shipping after the horizon. */
  predicate Excluded(cfg: Config, row: seq<Cell>) {
    || Cancelled(cfg, row)
    || (ShipDateOf(cfg, row).Some? && ShipDateOf(cfg, row).value.daysAhead > cfg.dias)
  }

  /** The texts and the ordered quantity extracted from a row. */
  datatype Line = Line(sku: string, nome: string, variacao: string, qtdPedido: real, texto: string)

  function Extract(cfg: Config, row: seq<Cell>): Line {
    var sku := Upper(Str(At(row, cfg.cols.sku)));
    var nome := if cfg.cols.nome.Some? then Upper(Str(At(row, cfg.cols.nome.value))) else "";
    var variacao := if cfg.cols.variacao.Some? then Str(At(row, cfg.cols.variacao.value)) else "";
    var qtd := cfg.parseQty(ReplaceAll(Str(At(row, cfg.cols.qtd)), ",", ".")).GetOr(0.0);
    Line(sku, nome, variacao, qtd, Upper(sku + " " + nome + " " + variacao))
  }

  function CategoryOf(l: Line): Category {
    Classify(l.sku, l.nome, l.texto)
  }

  /** `qtd_total`: the ordered quantity times the kit multiplier. */
  function TotalQty(l: Line): real {
    l.qtdPedido * (Multiplier(l.sku, l.texto, CategoryOf(l).Label()) as real)
  }

  function ExpansionOf(l: Line): Expansion {
    Expand(l.sku, l.variacao, CategoryOf(l).Label(), l.qtdPedido, TotalQty(l))
  }

  /** One entry of `lista_critica`. */
  datatype Urgency = Urgency(data: string, produto: string, qtd: real)

  predicate Urgent(d: Option<ShipDate>) {
    d.Some? && d.value.daysAhead <= 1
  }

  /** The production ledger after crediting the items one by one. */
  function Credit(p: Production, classe: string, css: string, items: seq<Item>): Production
    decreases |items|
  {
    if items == [] then p
    else Credit(p.AddItem(classe, css, items[0].aroma, items[0].qtd), classe, css, items[1..])
  }

  /** The urgency entry one item adds, if any. */
  function Alert(d: Option<ShipDate>, classe: string, item: Item): seq<Urgency> {
    if Urgent(d) then [Urgency(d.value.dayMonth, classe + " - " + item.aroma, item.qtd)] else []
  }

  /** The urgency entries the items add: one per item when the date is at most a day away. */
  function Alerts(d: Option<ShipDate>, classe: string, items: seq<Item>): seq<Urgency> {
    if items == [] then [] else Alert(d, classe, items[0]) + Alerts(d, classe, items[1..])
  }

  /** The three accumulators of the run. */
  datatype State = State(producao: Production, estoque: Ledger, critica: seq<Urgency>)

  const Initial: State := State(EmptyProduction, EmptyLedger, [])

  ghost predicate ValidState(s: State) {
    s.producao.Valid() && s.estoque.Valid()
  }

  /** The loop body for one row. */
  function StepRow(cfg: Config, s: State, row: seq<Cell>): State {
    if Excluded(cfg, row) then s
    else
      var l := Extract(cfg, row);
      var c := CategoryOf(l);
      var e := ExpansionOf(l);
      State(Credit(s.producao, c.Label(), c.Css(), e.items),
            s.estoque.Add(c.StockType(), e.stockQty),
            s.critica + Alerts(ShipDateOf(cfg, row), c.Label(), e.items))
  }

  /** The state after the given rows, in order. */
  function Run(cfg: Config, s: State, rows: seq<seq<Cell>>): State
    decreases |rows|
  {
    if rows == [] then s else Run(cfg, StepRow(cfg, s, rows[0]), rows[1..])
  }

  /** Running from row i is stepping row i, then running from row i + 1. */
  lemma RunFirst(cfg: Config, s: State, rows: seq<seq<Cell>>, i: nat)
    requires i < |rows|
    ensures Run(cfg, s, rows[i..]) == Run(cfg, StepRow(cfg, s, rows[i]), rows[i + 1..])
  {
    assert rows[i..][1..] == rows[i + 1..];
  }

  /** What processar_pedidos returns: the error, or the three accumulators. */
  datatype Outcome = Failed(msg: string) | Done(producao: Production, critica: seq<Urgency>, estoque: Ledger)

  function Process(t: Table, dias: int, parseQty: string -> Option<real>,
                   parseDate: string -> Option<ShipDate>): Outcome
  {
    match Resolve(t.headers)
    case None => Failed(MissingColumns)
    case Some(cols) =>
      var s := Run(Config(cols, dias, parseQty, parseDate), Initial, t.rows);
      Done(s.producao, s.critica, s.estoque)
  }

  // ---------------------------------------------------------------------------------
  // The imperative procedure

  /** The stock summary: `if tipo not in resumo_estoque: resumo_estoque[tipo] = 0`, then
      `resumo_estoque[tipo] += q`. */
  method CreditStock(estoque0: Ledger, tipo: string, q: real) returns (estoque: Ledger)
    ensures estoque == estoque0.Add(tipo, q)
  {
    estoque := estoque0;
    if tipo !in estoque.qty {
      estoque := Ledger(estoque.keys + [tipo], estoque.qty[tipo := 0.0]);
    }
    estoque := estoque.(qty := estoque.qty[tipo := estoque.qty[tipo] + q]);
  }

  /** One item: `if classe not in producao: producao[classe] = {'itens': {}, 'css': css}`,
      `if aroma not in itens: itens[aroma] = 0`, then `itens[aroma] += qtd`. */
  method CreditOne(producao0: Production, classe: string, css: string, aroma: string, qtd: real)
    returns (producao: Production)
    ensures producao == producao0.AddItem(classe, css, aroma, qtd)
  {
    producao := producao0;
    if classe !in producao.cats {
      producao := Production(producao.keys + [classe], producao.cats[classe := CatEntry(EmptyLedger, css)]);
    }
    var itens := producao.cats[classe].itens;
    if aroma !in itens.qty {
      itens := Ledger(itens.keys + [aroma], itens.qty[aroma := 0.0]);
    }
    itens := itens.(qty := itens.qty[aroma := itens.qty[aroma] + qtd]);
    producao := producao.(cats := producao.cats[classe := producao.cats[classe].(itens := itens)]);
  }

  /** The inner loop over a row's items: each is credited to its category and scent
      (both created empty on first sight, the category with its css tag), and listed as
      urgent when the ship date is at most a day away. */
  method CreditItems(producao0: Production, critica0: seq<Urgency>, classe: string, css: string,
                     dataEnvio: Option<ShipDate>, items: seq<Item>)
    returns (producao: Production, critica: seq<Urgency>)
    ensures producao == Credit(producao0, classe, css, items)
    ensures critica == critica0 + Alerts(dataEnvio, classe, items)
  {
    producao, critica := producao0, critica0;
    for j := 0 to |items|
      invariant Credit(producao, classe, css, items[j..]) == Credit(producao0, classe, css, items)
      invariant critica + Alerts(dataEnvio, classe, items[j..]) == critica0 + Alerts(dataEnvio, classe, items)
    {
      var item := items[j];
      CreditStep(producao, classe, css, items, j);
      AlertsStep(critica, dataEnvio, classe, items, j);
      producao := CreditOne(producao, classe, css, item.aroma, item.qtd);
      critica := AlertOne(critica, dataEnvio, classe, item);
    }
    assert items[|items|..] == [];
  }

  /** The urgency check of one item: listed when the row's ship date parsed and lies at
      most a day away. */
  method AlertOne(critica0: seq<Urgency>, dataEnvio: Option<ShipDate>, classe: string, item: Item)
    returns (critica: seq<Urgency>)
    ensures critica == critica0 + Alert(dataEnvio, classe, item)
  {
    critica := critica0;
    if dataEnvio.Some? {
      if dataEnvio.value.daysAhead <= 1 {
        critica := critica + [Urgency(dataEnvio.value.dayMonth, classe + " - " + item.aroma, item.qtd)];
      }
    }
  }

  /** Crediting from item j is crediting item j, then the items after it. */
  lemma CreditStep(p: Production, classe: string, css: string, items: seq<Item>, j: nat)
    requires j < |items|
    ensures Credit(p, classe, css, items[j..])
         == Credit(p.AddItem(classe, css, items[j].aroma, items[j].qtd), classe, css, items[j + 1..])
  {
    assert items[j..][1..] == items[j + 1..];
  }

  /** The alerts from item j are item j's own, then those of the items after it. */
  lemma AlertsStep(c: seq<Urgency>, d: Option<ShipDate>, classe: string, items: seq<Item>, j: nat)
    requires j < |items|
    ensures c + Alert(d, classe, items[j]) + Alerts(d, classe, items[j + 1..]) == c + Alerts(d, classe, items[j..])
  {
    assert items[j..][1..] == items[j + 1..];
  }

  /** The body of the loop over the rows: a cancelled row, or one whose parsed ship date
      lies beyond the horizon, is skipped (`continue`); any other row is classified,
      expanded and credited to the stock summary, the production ledger and the urgency
      list. */
  method ProcessRow(cfg: Config, producao0: Production, estoque0: Ledger, critica0: seq<Urgency>,
                    row: seq<Cell>)
    returns (producao: Production, estoque: Ledger, critica: seq<Urgency>)
    ensures State(producao, estoque, critica) == StepRow(cfg, State(producao0, estoque0, critica0), row)
  {
    producao, estoque, critica := producao0, estoque0, critica0;
    var cols := cfg.cols;
    if cols.status.Some? && Upper(Str(At(row, cols.status.value))) == "CANCELADO" {
      return;
    }
    var dataEnvio: Option<ShipDate> := None;
    if cols.data.Some? && At(row, cols.data.value).Val? {
      dataEnvio := cfg.parseDate(At(row, cols.data.value).text);
      if dataEnvio.Some? && dataEnvio.value.daysAhead > cfg.dias {
        return;
      }
    }
    assert dataEnvio == ShipDateOf(cfg, row);

    var l := Extract(cfg, row);
    var c := CategoryOf(l);
    var e := ExpansionOf(l);
    var classe := c.Label();

    estoque := CreditStock(estoque, c.StockType(), e.stockQty);
    producao, critica := CreditItems(producao, critica, classe, c.Css(), dataEnvio, e.items);
  }

  /** processar_pedidos: resolve the columns, then one pass over the rows, each row
      filtered, classified, expanded and credited to the three accumulators in place. */
  method ProcessOrders(t: Table, dias: int, parseQty: string -> Option<real>,
                       parseDate: string -> Option<ShipDate>) returns (out: Outcome)
    ensures out == Process(t, dias, parseQty, parseDate)
  {
    var producao := EmptyProduction;
    var critica: seq<Urgency> := [];
    var estoque := EmptyLedger;

    var resolved := Resolve(t.headers);
    if resolved.None? {
      return Failed(MissingColumns);
    }
    var cols := resolved.value;
    var cfg := Config(cols, dias, parseQty, parseDate);

    for i := 0 to |t.rows|
      invariant Run(cfg, State(producao, estoque, critica), t.rows[i..]) == Run(cfg, Initial, t.rows)
    {
      RunFirst(cfg, State(producao, estoque, critica), t.rows, i);
      producao, estoque, critica := ProcessRow(cfg, producao, estoque, critica, t.rows[i]);
    }
    assert t.rows[|t.rows|..] == [];
    return Done(producao, critica, estoque);
  }
}

=== FILE: properties.dfy ===
/** What processar_pedidos (app.py) guarantees about its three accumulators, proved of the
    row-by-row specification in module Orders (which ProcessOrders is proved to compute). */
module OrderProperties {
  import opened Options
  import opened Text
  import opened Scent
  import opened Rules
  import opened Ledgers
  import opened Orders

  // ---------------------------------------------------------------------------------
  // The inner loop over a row's items

  /** Crediting items keeps `producao` well formed and adds exactly their sum to its total. */
  lemma {:induction false} CreditTotal(p: Production, classe: string, css: string, items: seq<Item>)
    requires p.Valid()
    ensures Credit(p, classe, css, items).Valid()
    ensures Credit(p, classe, css, items).Total() == p.Total() + SumItems(items)
    decreases |items|
  {
    if items != [] {
      AddItemTotal(p, classe, css, items[0].aroma, items[0].qtd);
      CreditTotal(p.AddItem(classe, css, items[0].aroma, items[0].qtd), classe, css, items[1..]);
    }
  }

  /** The scents of a category before a credit: none when the category is new. */
  function ScentsOf(p: Production, classe: string): set<string> {
    if classe in p.cats then p.cats[classe].itens.qty.Keys else {}
  }

  /** Crediting items touches only their category: it exists afterwards (if there was an
      item) and keeps the css tag it was first created with; its scents are its old ones
      plus the items' scents, each scent's quantity rises by what the items carry for it
      (so a scent no item names keeps its quantity); no other category changes and none is
      removed. */
  lemma CreditFrame(p: Production, classe: string, css: string, items: seq<Item>)
    ensures Credit(p, classe, css, items).cats.Keys == p.cats.Keys + (if items == [] then {} else {classe})
    ensures forall c :: c in p.cats && c != classe ==> Credit(p, classe, css, items).cats[c] == p.cats[c]
    ensures classe in Credit(p, classe, css, items).cats ==>
      Credit(p, classe, css, items).cats[classe].css == (if classe in p.cats then p.cats[classe].css else css)
    ensures items != [] ==>
      Credit(p, classe, css, items).cats[classe].itens.qty.Keys == ScentsOf(p, classe) + Aromas(items)
    ensures forall a ::
      Credit(p, classe, css, items).Qty(classe, a) == p.Qty(classe, a) + ScentSum(items, a)
    ensures forall a :: a !in Aromas(items) ==>
      Credit(p, classe, css, items).Qty(classe, a) == p.Qty(classe, a)
  {
    CreditCategories(p, classe, css, items);
    CreditScents(p, classe, css, items);
    CreditQty(p, classe, css, items);
    forall a | a !in Aromas(items)
      ensures ScentSum(items, a) == 0.0
    {
      NoScentSum(items, a);
    }
  }

  /** The scents the items name. */
  function Aromas(items: seq<Item>): set<string> {
    set it | it in items :: it.aroma
  }

  lemma {:induction false} CreditCategories(p: Production, classe: string, css: string, items: seq<Item>)
    ensures Credit(p, classe, css, items).cats.Keys == p.cats.Keys + (if items == [] then {} else {classe})
    ensures forall c :: c in p.cats && c != classe ==> Credit(p, classe, css, items).cats[c] == p.cats[c]
    ensures classe in Credit(p, classe, css, items).cats ==>
      Credit(p, classe, css, items).cats[classe].css == (if classe in p.cats then p.cats[classe].css else css)
    decreases |items|
  {
    if items != [] {
      AddItemEffect(p, classe, css, items[0].aroma, items[0].qtd);
      CreditCategories(p.AddItem(classe, css, items[0].aroma, items[0].qtd), classe, css, items[1..]);
    }
  }

  lemma {:induction false} CreditScents(p: Production, classe: string, css: string, items: seq<Item>)
    ensures items != [] ==>
      && classe in Credit(p, classe, css, items).cats
      && Credit(p, classe, css, items).cats[classe].itens.qty.Keys == ScentsOf(p, classe) + Aromas(items)
    decreases |items|
  {
    if items != [] {
      var q := p.AddItem(classe, css, items[0].aroma, items[0].qtd);
      AddItemScents(p, classe, css, items[0].aroma, items[0].qtd);
      CreditScents(q, classe, css, items[1..]);
      AromasCons(items);
    }
  }

  lemma AddItemScents(p: Production, classe: string, css: string, aroma: string, q: real)
    ensures classe in p.AddItem(classe, css, aroma, q).cats
    ensures ScentsOf(p.AddItem(classe, css, aroma, q), classe) == ScentsOf(p, classe) + {aroma}
  {
    AddItemEffect(p, classe, css, aroma, q);
    AddEffect(if classe in p.cats then p.cats[classe].itens else EmptyLedger, aroma, q);
  }

  lemma AromasCons(items: seq<Item>)
    requires items != []
    ensures Aromas(items) == {items[0].aroma} + Aromas(items[1..])
  {
    assert forall it <- items :: it == items[0] || it in items[1..];
  }

  lemma {:induction false} CreditQty(p: Production, classe: string, css: string, items: seq<Item>)
    ensures forall a ::
      Credit(p, classe, css, items).Qty(classe, a) == p.Qty(classe, a) + ScentSum(items, a)
    decreases |items|
  {
    if items != [] {
      AddItemQty(p, classe, css, items[0].aroma, items[0].qtd);
      CreditQty(p.AddItem(classe, css, items[0].aroma, items[0].qtd), classe, css, items[1..]);
    }
  }

  /** Items none of which names a scent carry nothing for it. */
  lemma {:induction false} NoScentSum(items: seq<Item>, aroma: string)
    requires aroma !in Aromas(items)
    ensures ScentSum(items, aroma) == 0.0
    decreases |items|
  {
    if items != [] {
      assert items[0] in items;
      assert Aromas(items[1..]) <= Aromas(items) by {
        assert forall it <- items[1..] :: it in items;
      }
      NoScentSum(items[1..], aroma);
    }
  }

  /** The urgency entries of a row's items: none unless the ship date is at most a day
      away, and then one per item, in order, naming the category and the scent. */
  lemma {:induction false} AlertsShape(d: Option<ShipDate>, classe: string, items: seq<Item>)
    ensures !Urgent(d) ==> Alerts(d, classe, items) == []
    ensures Urgent(d) ==> |Alerts(d, classe, items)| == |items|
    ensures Urgent(d) ==> forall k :: 0 <= k < |items| ==>
      Alerts(d, classe, items)[k] == Urgency(d.value.dayMonth, classe + " - " + items[k].aroma, items[k].qtd)
    decreases |items|
  {
    if items != [] {
      AlertsShape(d, classe, items[1..]);
      if Urgent(d) {
        var head := Urgency(d.value.dayMonth, classe + " - " + items[0].aroma, items[0].qtd);
        assert Alerts(d, classe, items) == [head] + Alerts(d, classe, items[1..]);
        forall k | 1 <= k < |items|
          ensures Alerts(d, classe, items)[k] == Urgency(d.value.dayMonth, classe + " - " + items[k].aroma, items[k].qtd)
        {
          assert items[1..][k - 1] == items[k];
        }
      }
    }
  }

  // ---------------------------------------------------------------------------------
  // One row

  /** A row that is not skipped is credited exactly once to the stock type of its category
      (created at 0 if new) and to its category's entry, whose css tag is fixed when the
      category is first seen. Inside that category the row's scents are added, each scent
      rises by what the row's items carry for it and every other scent keeps its quantity;
      every other stock type and category is left unchanged. */
  lemma RowFrame(cfg: Config, s: State, row: seq<Cell>)
    requires !Excluded(cfg, row)
    ensures
      var c := CategoryOf(Extract(cfg, row));
      var e := ExpansionOf(Extract(cfg, row));
      var t := StepRow(cfg, s, row);
      && t.estoque.qty.Keys == s.estoque.qty.Keys + {c.StockType()}
      && t.estoque.qty[c.StockType()]
         == (if c.StockType() in s.estoque.qty then s.estoque.qty[c.StockType()] else 0.0) + e.stockQty
      && (forall k :: k in s.estoque.qty && k != c.StockType() ==> t.estoque.qty[k] == s.estoque.qty[k])
      && t.producao.cats.Keys == s.producao.cats.Keys + {c.Label()}
      && (forall k :: k in s.producao.cats && k != c.Label() ==> t.producao.cats[k] == s.producao.cats[k])
      && t.producao.cats[c.Label()].css
         == (if c.Label() in s.producao.cats then s.producao.cats[c.Label()].css else c.Css())
      && t.producao.cats[c.Label()].itens.qty.Keys == ScentsOf(s.producao, c.Label()) + Aromas(e.items)
      && (forall a :: t.producao.Qty(c.Label(), a) == s.producao.Qty(c.Label(), a) + ScentSum(e.items, a))
      && (forall a :: a !in Aromas(e.items) ==> t.producao.Qty(c.Label(), a) == s.producao.Qty(c.Label(), a))
  {
    var l := Extract(cfg, row);
    var c := CategoryOf(l);
    var e := ExpansionOf(l);
    AddEffect(s.estoque, c.StockType(), e.stockQty);
    CreditFrame(s.producao, c.Label(), c.Css(), e.items);
  }

  /** A row that is not skipped adds the same amount, its stock quantity, to the totals of
      `resumo_estoque` and of `producao`, and keeps both well formed. */
  lemma RowTotals(cfg: Config, s: State, row: seq<Cell>)
    requires ValidState(s) && !Excluded(cfg, row)
    ensures ValidState(StepRow(cfg, s, row))
    ensures StepRow(cfg, s, row).estoque.Total()
         == s.estoque.Total() + ExpansionOf(Extract(cfg, row)).stockQty
    ensures StepRow(cfg, s, row).producao.Total()
         == s.producao.Total() + ExpansionOf(Extract(cfg, row)).stockQty
  {
    var l := Extract(cfg, row);
    var c := CategoryOf(l);
    var e := ExpansionOf(l);
    AddTotal(s.estoque, c.StockType(), e.stockQty);
    CreditTotal(s.producao, c.Label(), c.Css(), e.items);
  }

  /** The urgency list only grows. A skipped row adds nothing; any other row adds one entry
      per item exactly when its ship date is at most a day away. Under any horizon of at
      least one day, a non-cancelled order due within a day is always listed. */
  lemma UrgencyRecords(cfg: Config, s: State, row: seq<Cell>)
    ensures s.critica <= StepRow(cfg, s, row).critica
    ensures Excluded(cfg, row) ==> StepRow(cfg, s, row).critica == s.critica
    ensures
      var l := Extract(cfg, row);
      var e := ExpansionOf(l);
      var d := ShipDateOf(cfg, row);
      var added := StepRow(cfg, s, row).critica[|s.critica|..];
      !Excluded(cfg, row) ==>
        && |added| == (if Urgent(d) then |e.items| else 0)
        && forall k :: 0 <= k < |added| ==>
             added[k] == Urgency(d.value.dayMonth, CategoryOf(l).Label() + " - " + e.items[k].aroma, e.items[k].qtd)
    ensures cfg.dias >= 1 && !Cancelled(cfg, row) && Urgent(ShipDateOf(cfg, row)) ==>
      |StepRow(cfg, s, row).critica| == |s.critica| + |ExpansionOf(Extract(cfg, row)).items|
  {
    var l := Extract(cfg, row);
    var e := ExpansionOf(l);
    AlertsShape(ShipDateOf(cfg, row), CategoryOf(l).Label(), e.items);
  }

  /** A row without a usable ship date (no date column, an empty cell, or a date that does
      not parse) is never skipped for its date and never listed as urgent. */
  lemma MissingDateNeverExcludes(cfg: Config, s: State, row: seq<Cell>)
    requires || cfg.cols.data.None?
             || At(row, cfg.cols.data.value).Null?
             || cfg.parseDate(At(row, cfg.cols.data.value).text).None?
    ensures Excluded(cfg, row) <==> Cancelled(cfg, row)
    ensures StepRow(cfg, s, row).critica == s.critica
  {
    AlertsShape(None, CategoryOf(Extract(cfg, row)).Label(), ExpansionOf(Extract(cfg, row)).items);
  }

  /** A row ordered zero times expands to items of quantity 0.0 and a stock quantity of 0.0. */
  lemma ZeroOrder(l: Line)
    requires l.qtdPedido == 0.0
    ensures ExpansionOf(l).stockQty == 0.0
    ensures forall it <- ExpansionOf(l).items :: it.qtd == 0.0
  {
    assert TotalQty(l) == 0.0;
    ExpandCases(l.sku, l.variacao, CategoryOf(l).Label(), 0.0, 0.0);
  }

  /** A quantity that does not parse counts as 0.0: the row is still classified and its
      category, scents and stock type are still entered, each with nothing added. */
  lemma UnparseableQuantity(cfg: Config, s: State, row: seq<Cell>)
    requires cfg.parseQty(ReplaceAll(Str(At(row, cfg.cols.qtd)), ",", ".")).None?
    ensures Extract(cfg, row).qtdPedido == 0.0
    ensures ExpansionOf(Extract(cfg, row)).stockQty == 0.0
    ensures forall it <- ExpansionOf(Extract(cfg, row)).items :: it.qtd == 0.0
    ensures !Excluded(cfg, row) ==>
      && StepRow(cfg, s, row).estoque.qty.Keys == s.estoque.qty.Keys + {CategoryOf(Extract(cfg, row)).StockType()}
      && StepRow(cfg, s, row).producao.cats.Keys == s.producao.cats.Keys + {CategoryOf(Extract(cfg, row)).Label()}
    ensures ValidState(s) && !Excluded(cfg, row) ==>
      && StepRow(cfg, s, row).estoque.Total() == s.estoque.Total()
      && StepRow(cfg, s, row).producao.Total() == s.producao.Total()
  {
    ZeroOrder(Extract(cfg, row));
    if !Excluded(cfg, row) {
      RowFrame(cfg, s, row);
      if ValidState(s) {
        RowTotals(cfg, s, row);
      }
    }
  }

  /** "nan" is a clean scent name: the cleanup keeps it as it is. */
  lemma NanIsCleanName(n: string)
    requires n == "nan"
    ensures CleanScent(Some(n)) == n
  {
    assert ' ' !in n && ')' !in n;
    NotContainsMissingChar(n, " e ", 0);
    NotContainsMissingChar(n, " E ", 0);
    NotContainsMissingChar(n, "  ", 0);
    assert Plain(n) && Trimmed(n);
    CleanNameUnchanged(n);
  }

  /** "nan" names neither the mixed jar kit nor an assorted foot soak. */
  lemma NanIsNoKit(n: string)
    requires n == "nan"
    ensures !Contains(Upper(n), "CERJ/FLOR/BRISA")
    ensures !Contains(Upper(n), "VARIADO") && !Contains(Upper(n), "SORTIDO")
  {
    UpperAscii(n);
    var u := Upper(n);
    assert 'C' !in u && 'V' !in u && 'S' !in u;
    NotContainsMissingChar(u, "CERJ/FLOR/BRISA", 0);
    NotContainsMissingChar(u, "VARIADO", 0);
    NotContainsMissingChar(u, "SORTIDO", 0);
  }

  /** An empty variation cell reads as "nan", which the scent cleanup keeps as it is: the
      order is filed under a scent named "nan", not under the fallback name. */
  lemma EmptyVariationIsNan(cfg: Config, row: seq<Cell>, n: string)
    requires n == "nan"
    requires cfg.cols.variacao.Some? && At(row, cfg.cols.variacao.value).Null?
    ensures Extract(cfg, row).variacao == n
    ensures !Contains(Extract(cfg, row).sku, "V100-CFB") ==>
      ExpansionOf(Extract(cfg, row)).items == [Item(n, TotalQty(Extract(cfg, row)))]
  {
    NanIsCleanName(n);
    NanIsNoKit(n);
  }

  // ---------------------------------------------------------------------------------
  // The whole run

  /** The stock units credited by the rows that are not skipped. */
  function Units(cfg: Config, rows: seq<seq<Cell>>): real
    decreases |rows|
  {
    if rows == [] then 0.0
    else (if Excluded(cfg, rows[0]) then 0.0 else ExpansionOf(Extract(cfg, rows[0])).stockQty)
         + Units(cfg, rows[1..])
  }

  /** The rows that are not skipped, in order. */
  function Kept(cfg: Config, rows: seq<seq<Cell>>): (r: seq<seq<Cell>>)
    ensures forall row <- r :: row in rows && !Excluded(cfg, row)
    ensures forall row <- rows :: !Excluded(cfg, row) ==> row in r
    decreases |rows|
  {
    if rows == [] then []
    else (if Excluded(cfg, rows[0]) then [] else [rows[0]]) + Kept(cfg, rows[1..])
  }

  /** Conservation: both ledgers grow by the same amount, the units of the kept rows. */
  lemma {:induction false} RunTotals(cfg: Config, s: State, rows: seq<seq<Cell>>)
    requires ValidState(s)
    ensures ValidState(Run(cfg, s, rows))
    ensures Run(cfg, s, rows).estoque.Total() == s.estoque.Total() + Units(cfg, rows)
    ensures Run(cfg, s, rows).producao.Total() == s.producao.Total() + Units(cfg, rows)
    decreases |rows|
  {
    if rows != [] {
      if !Excluded(cfg, rows[0]) {
        RowTotals(cfg, s, rows[0]);
      }
      RunTotals(cfg, StepRow(cfg, s, rows[0]), rows[1..]);
    }
  }

  /** Skipped rows are invisible: the run gives what the kept rows alone give. */
  lemma {:induction false} RunKept(cfg: Config, s: State, rows: seq<seq<Cell>>)
    ensures Run(cfg, s, rows) == Run(cfg, s, Kept(cfg, rows))
    decreases |rows|
  {
    if rows != [] {
      var rest := Kept(cfg, rows[1..]);
      RunKept(cfg, StepRow(cfg, s, rows[0]), rows[1..]);
      if Excluded(cfg, rows[0]) {
        assert Kept(cfg, rows) == rest;
        RunKept(cfg, s, rows[1..]);
      } else {
        assert Kept(cfg, rows) == [rows[0]] + rest;
        assert ([rows[0]] + rest)[1..] == rest;
      }
    }
  }

  /** Removing a skipped row anywhere in the sheet changes nothing. */
  lemma {:induction false} ExcludedRowInvisible(cfg: Config, s: State, a: seq<seq<Cell>>, r: seq<Cell>, b: seq<seq<Cell>>)
    requires Excluded(cfg, r)
    ensures Run(cfg, s, a + [r] + b) == Run(cfg, s, a + b)
    decreases |a|
  {
    if a == [] {
      assert a + [r] + b == [r] + b && ([r] + b)[1..] == b && a + b == b;
    } else {
      assert (a + [r] + b)[0] == a[0] && (a + [r] + b)[1..] == a[1..] + [r] + b;
      assert (a + b)[0] == a[0] && (a + b)[1..] == a[1..] + b;
      ExcludedRowInvisible(cfg, StepRow(cfg, s, a[0]), a[1..], r, b);
    }
  }

  /** Every category in `producao` carries the css tag of the category its label names. */
  ghost predicate TagsAgree(p: Production) {
    forall k :: k in p.cats ==> exists c: Category :: c.Label() == k && p.cats[k].css == c.Css()
  }

  /** A row keeps every css tag the one its category's label goes with. */
  lemma StepTagsAgree(cfg: Config, s: State, row: seq<Cell>)
    requires TagsAgree(s.producao) && !Excluded(cfg, row)
    ensures TagsAgree(StepRow(cfg, s, row).producao)
  {
    RowFrame(cfg, s, row);
    var t := StepRow(cfg, s, row);
    var c := CategoryOf(Extract(cfg, row));
    forall k | k in t.producao.cats
      ensures exists c': Category :: c'.Label() == k && t.producao.cats[k].css == c'.Css()
    {
      if k == c.Label() && k !in s.producao.cats {
        assert c.Label() == k && t.producao.cats[k].css == c.Css();
      }
    }
  }

  /** One row removes no key and no scent, changes no css tag and only appends to the
      urgency list. */
  lemma StepKeeps(cfg: Config, s: State, row: seq<Cell>)
    ensures s.estoque.qty.Keys <= StepRow(cfg, s, row).estoque.qty.Keys
    ensures s.producao.cats.Keys <= StepRow(cfg, s, row).producao.cats.Keys
    ensures forall k :: k in s.producao.cats ==>
      && StepRow(cfg, s, row).producao.cats[k].css == s.producao.cats[k].css
      && s.producao.cats[k].itens.qty.Keys <= StepRow(cfg, s, row).producao.cats[k].itens.qty.Keys
    ensures TagsAgree(s.producao) ==> TagsAgree(StepRow(cfg, s, row).producao)
    ensures s.critica <= StepRow(cfg, s, row).critica
  {
    UrgencyRecords(cfg, s, row);
    if Excluded(cfg, row) {
      assert StepRow(cfg, s, row) == s;
    } else {
      RowFrame(cfg, s, row);
      var t := StepRow(cfg, s, row);
      var touched := CategoryOf(Extract(cfg, row)).Label();
      forall k | k in s.producao.cats
        ensures t.producao.cats[k].css == s.producao.cats[k].css
        ensures s.producao.cats[k].itens.qty.Keys <= t.producao.cats[k].itens.qty.Keys
      {
        if k != touched {
          assert t.producao.cats[k] == s.producao.cats[k];
        }
      }
      if TagsAgree(s.producao) {
        StepTagsAgree(cfg, s, row);
      }
    }
  }

  /** Keys are never removed, scents of a category never disappear, a category's css tag
      never changes once set (and is always the one its label goes with), and the urgency
      list only grows. */
  lemma {:induction false} RunKeeps(cfg: Config, s: State, rows: seq<seq<Cell>>)
    ensures s.estoque.qty.Keys <= Run(cfg, s, rows).estoque.qty.Keys
    ensures s.producao.cats.Keys <= Run(cfg, s, rows).producao.cats.Keys
    ensures forall k :: k in s.producao.cats ==>
      && Run(cfg, s, rows).producao.cats[k].css == s.producao.cats[k].css
      && s.producao.cats[k].itens.qty.Keys <= Run(cfg, s, rows).producao.cats[k].itens.qty.Keys
    ensures TagsAgree(s.producao) ==> TagsAgree(Run(cfg, s, rows).producao)
    ensures s.critica <= Run(cfg, s, rows).critica
    decreases |rows|
  {
    if rows != [] {
      StepKeeps(cfg, s, rows[0]);
      RunKeeps(cfg, StepRow(cfg, s, rows[0]), rows[1..]);
    }
  }

  // ---------------------------------------------------------------------------------
  // processar_pedidos

  /** The error is returned exactly when no header names an SKU column or none names a
      quantity column, and then whatever the rows hold. */
  lemma MissingColumnsFail(headers: seq<string>, rows: seq<seq<Cell>>, dias: int,
                           parseQty: string -> Option<real>, parseDate: string -> Option<ShipDate>)
    ensures Process(Table(headers, rows), dias, parseQty, parseDate).Failed? <==>
      || (forall k :: 0 <= k < |headers| ==> !MatchesAny(Key(headers[k]), SkuWords))
      || (forall k :: 0 <= k < |headers| ==> !MatchesAny(Key(headers[k]), QuantityWords))
    ensures Process(Table(headers, rows), dias, parseQty, parseDate).Failed? ==>
      Process(Table(headers, rows), dias, parseQty, parseDate) == Failed(MissingColumns)
  {
    ColumnLookup(headers, SkuWords);
    ColumnLookup(headers, QuantityWords);
  }

  /** A run from empty ledgers: both well formed, both totalling the units of the kept
      rows, the export adding up to the same number, every css tag the one its label goes
      with. */
  lemma RunFromEmpty(cfg: Config, rows: seq<seq<Cell>>)
    ensures
      var s := Run(cfg, Initial, rows);
      && s.producao.Valid() && s.estoque.Valid()
      && s.estoque.Total() == Units(cfg, rows)
      && s.producao.Total() == Units(cfg, rows)
      && SumRows(ExportRows(s.producao)) == Units(cfg, rows)
      && TagsAgree(s.producao)
  {
    assert ValidState(Initial);
    assert Initial.producao.Total() == 0.0 && Initial.estoque.Total() == 0.0;
    RunTotals(cfg, Initial, rows);
    RunKeeps(cfg, Initial, rows);
    ExportTotal(Run(cfg, Initial, rows).producao);
  }

  /** On success: both ledgers are well formed, the total of `producao` (the "pieces to
      produce" figure) equals the total of `resumo_estoque`, both are the units of the kept
      rows, the exported sheet adds up to the same number, and every category's css tag is
      the one its label goes with. */
  lemma Conservation(t: Table, dias: int, parseQty: string -> Option<real>,
                     parseDate: string -> Option<ShipDate>)
    ensures
      var out := Process(t, dias, parseQty, parseDate);
      out.Done? ==>
        && out.producao.Valid() && out.estoque.Valid()
        && out.producao.Total() == out.estoque.Total()
        && out.estoque.Total() == Units(Config(Resolve(t.headers).value, dias, parseQty, parseDate), t.rows)
        && SumRows(ExportRows(out.producao)) == out.estoque.Total()
        && TagsAgree(out.producao)
  {
    if Resolve(t.headers).Some? {
      RunFromEmpty(Config(Resolve(t.headers).value, dias, parseQty, parseDate), t.rows);
    }
  }
}

=== FILE: rules.dfy ===
/** The per-row decision rules of processar_pedidos (app.py): the category a row is filed
    under, the kit multiplier, the expansion of a row into scent items, and the mapping of
    the sidebar's deadline choice to a horizon in days. */
module Rules {
  import opened Options
  import opened Text
  import opened Scent

  /** The common beginning of the spray labels. */
  const SprayPrefix: string := "4. HOME SPRAY - "

  /** The eleven categories a row can be filed under. */
  datatype Category =
    | MiniVelas | VelasPote | EscaldaPes
    | Spray1L | Spray500 | Spray250 | Spray100 | Spray60 | Spray30 | SprayPadrao
    | Outros
  {
    predicate IsSpray() {
      !(MiniVelas? || VelasPote? || EscaldaPes? || Outros?)
    }

    /** `classe`: the production-ledger key and card title. */
    function Label(): string {
      match this
      case MiniVelas => "1. MINI VELAS (30G)"
      case VelasPote => "2. VELAS POTE (100G)"
      case EscaldaPes => "3. ESCALDA PÉS"
      case Spray1L => SprayPrefix + "1 LITRO"
      case Spray500 => SprayPrefix + "500ML"
      case Spray250 => SprayPrefix + "250ML"
      case Spray100 => SprayPrefix + "100ML"
      case Spray60 => SprayPrefix + "60ML"
      case Spray30 => SprayPrefix + "30ML"
      case SprayPadrao => SprayPrefix + "PADRÃO"
      case Outros => "99. OUTROS"
    }

    /** `css_class`: the colour tag of the category's card. */
    function Css(): string {
      match this
      case MiniVelas => "mini-vela"
      case VelasPote => "vela-pote"
      case EscaldaPes => "escalda"
      case Outros => "outros"
      case _ => "spray"
    }

    /** `tipo_estoque`: the key of the stock (picking) ledger. */
    function StockType(): string {
      match this
      case MiniVelas => "Mini Velas (Unidades)"
      case VelasPote => "Potes de Vidro (Unidades)"
      case EscaldaPes => "Escalda Pés (Pacotes)"
      case Spray1L => "Frasco 1 Litro"
      case Spray500 => "Frasco 500ml"
      case Spray250 => "Frasco 250ml"
      case Spray100 => "Frasco 100ml"
      case Spray60 => "Frasco 60ml"
      case Spray30 => "Frasco 30ml"
      case SprayPadrao => "Frascos Diversos"
      case Outros => "Outros"
    }
  }

  /** The classification chain, first match wins. sku and nome are upper-cased; texto is
      the upper-cased "sku nome variation" line. */
  function Classify(sku: string, nome: string, texto: string): Category
  {
    if Contains(sku, "MV") || Contains(nome, "MINI VELA") then MiniVelas
    else if Contains(sku, "V100") || Contains(nome, "100G") || Contains(nome, "POTE") then VelasPote
    else if Contains(sku, "ES-") || Contains(nome, "ESCALDA") then EscaldaPes
    else if Contains(texto, "SPRAY") || Contains(texto, "CHEIRINHO") then
      if Contains(texto, "1L") || Contains(texto, "1 LITRO") then Spray1L
      else if Contains(texto, "500") then Spray500
      else if Contains(texto, "250") then Spray250
      else if Contains(texto, "100") then Spray100
      else if Contains(texto, "60") then Spray60
      else if Contains(texto, "30") then Spray30
      else SprayPadrao
    else Outros
  }

  /** re.search(n + r"\s?UN", texto): the count n, then at most one whitespace character,
      then "UN", with no word boundary on either side. */
  predicate UnitCount(texto: string, n: string)
    decreases |texto|
  {
    || StartsWith(texto, n + "UN")
    || (|n| < |texto| && StartsWith(texto, n) && IsSpace(texto[|n|])
        && StartsWith(texto[|n| + 1..], "UN"))
    || (texto != [] && UnitCount(texto[1..], n))
  }

  /** `mult`: the kit multiplier chain, first match wins. */
  function Multiplier(sku: string, texto: string, classe: string): nat
  {
    if UnitCount(texto, "20") then 20
    else if UnitCount(texto, "10") then 10
    else if UnitCount(texto, "5") then 5
    else if Contains(sku, "MVK") || Contains(texto, "KIT 4") then
      (if Contains(texto, "2 KIT") then 8 else 4)
    else if Contains(sku, "KIT 3") then 3
    else if Contains(classe, "SPRAY") && Contains(texto, "2UN") then 2
    else 1
  }

  /** One (scent, quantity) pair to be credited to the production ledger. */
  datatype Item = Item(aroma: string, qtd: real)

  /** `itens_para_adicionar` and `qtd_total_estoque` of one row. */
  datatype Expansion = Expansion(items: seq<Item>, stockQty: real)

  function SumItems(items: seq<Item>): real {
    if items == [] then 0.0 else items[0].qtd + SumItems(items[1..])
  }

  /** The quantity the items carry for one scent. */
  function ScentSum(items: seq<Item>, aroma: string): real {
    if items == [] then 0.0
    else (if items[0].aroma == aroma then items[0].qtd else 0.0) + ScentSum(items[1..], aroma)
  }

  lemma SumThree(x: Item, y: Item, z: Item)
    ensures SumItems([x, y, z]) == x.qtd + y.qtd + z.qtd
  {
    assert [x, y, z][1..] == [y, z];
    assert [y, z][1..] == [z];
    assert [z][1..] == [];
    assert SumItems([z]) == z.qtd;
    assert SumItems([y, z]) == y.qtd + z.qtd;
  }

  /** The mixed jar kit: three jars, one of each fixed scent. */
  predicate IsMixedJarKit(sku: string, variacao: string) {
    Contains(sku, "V100-CFB") || (Contains(sku, "V100") && Contains(Upper(variacao), "CERJ/FLOR/BRISA"))
  }

  /** The assorted foot soak: one third of the units for each fixed scent. */
  predicate IsAssortedFootSoak(classe: string, variacao: string) {
    Contains(classe, "ESCALDA")
    && (Contains(Upper(variacao), "VARIADO") || Contains(Upper(variacao), "SORTIDO"))
  }

  /** The expansion rules: a row becomes one or three scent items, and the stock ledger
      is credited with exactly what the items add up to. */
  function Expand(sku: string, variacao: string, classe: string, qtdPedido: real, qtdTotal: real)
    : (e: Expansion)
    ensures |e.items| == 1 || |e.items| == 3
    ensures SumItems(e.items) == e.stockQty
  {
    if IsMixedJarKit(sku, variacao) then
      SumThree(Item("Cereja & Avelã", qtdPedido), Item("Flor de Cerejeira", qtdPedido),
               Item("Brisa do Mar", qtdPedido));
      Expansion([Item("Cereja & Avelã", qtdPedido), Item("Flor de Cerejeira", qtdPedido),
                 Item("Brisa do Mar", qtdPedido)], qtdPedido * 3.0)
    else if IsAssortedFootSoak(classe, variacao) then
      var div := qtdTotal / 3.0;
      SumThree(Item("Lavanda", div), Item("Alecrim", div), Item("Camomila", div));
      Expansion([Item("Lavanda", div), Item("Alecrim", div), Item("Camomila", div)], qtdTotal)
    else
      Expansion([Item(CleanScent(Some(variacao)), qtdTotal)], qtdTotal)
  }

  // The four options of the sidebar's horizon radio (app.py:261-265).
  const ChoiceAll: string := "TUDO (Sem limites)"
  const ChoiceUrgent: string := "\U{1F6A8} URGENTE (24h)"
  const ChoiceThreeDays: string := "\U{26A0}\U{FE0F} Próximos 3 Dias"
  const ChoiceWeek: string := "\U{1F4C5} Esta Semana"

  /** `dias_limite` from the sidebar choice: first match wins, no match means no limit. */
  function Horizon(filtro: string): int
  {
    if Contains(filtro, "URGENTE") then 1
    else if Contains(filtro, "3 Dias") then 3
    else if Contains(filtro, "Semana") then 7
    else 9999
  }

  // ---------------------------------------------------------------------------------
  // Properties of the rules

  /** A category's label identifies it, so the css tag and the stock type that go with a
      label are always the same; the stock types identify the category as well. */
  lemma LabelsIdentifyCategories(a: Category, b: Category)
    ensures a.Label() == b.Label() <==> a == b
    ensures a.StockType() == b.StockType() <==> a == b
    ensures a.Label() == b.Label() ==> a.Css() == b.Css() && a.StockType() == b.StockType()
  {
    LabelRead(a);
    LabelRead(b);
    StockTypeRead(a);
    StockTypeRead(b);
  }

  /** The category named by a label: its leading digit, and for the sprays the characters
      that follow "4. HOME SPRAY - ". */
  function LabelCategory(l: string): Option<Category> {
    if l == [] then None
    else if l[0] == '1' then Some(MiniVelas)
    else if l[0] == '2' then Some(VelasPote)
    else if l[0] == '3' then Some(EscaldaPes)
    else if l[0] == '9' then Some(Outros)
    else if |l| < 18 then None
    else if l[16] == '1' then (if l[17] == ' ' then Some(Spray1L) else Some(Spray100))
    else if l[16] == '5' then Some(Spray500)
    else if l[16] == '2' then Some(Spray250)
    else if l[16] == '6' then Some(Spray60)
    else if l[16] == '3' then Some(Spray30)
    else Some(SprayPadrao)
  }

  /** The category named by a stock type: its first letter, and for the bottles the
      characters that follow "Frasco". */
  function StockTypeCategory(t: string): Option<Category> {
    if t == [] then None
    else if t[0] == 'M' then Some(MiniVelas)
    else if t[0] == 'P' then Some(VelasPote)
    else if t[0] == 'E' then Some(EscaldaPes)
    else if t[0] == 'O' then Some(Outros)
    else if |t| < 9 then None
    else if t[6] == 's' then Some(SprayPadrao)
    else if t[7] == '1' then (if t[8] == ' ' then Some(Spray1L) else Some(Spray100))
    else if t[7] == '5' then Some(Spray500)
    else if t[7] == '2' then Some(Spray250)
    else if t[7] == '6' then Some(Spray60)
    else Some(Spray30)
  }

  lemma LabelRead(c: Category)
    ensures LabelCategory(c.Label()) == Some(c)
  {
    match c
    case MiniVelas =>
    case VelasPote =>
    case EscaldaPes =>
    case Spray1L =>
    case Spray500 =>
    case Spray250 =>
    case Spray100 =>
    case Spray60 =>
    case Spray30 =>
    case SprayPadrao =>
    case Outros =>
  }

  lemma StockTypeRead(c: Category)
    ensures StockTypeCategory(c.StockType()) == Some(c)
  {
    match c
    case MiniVelas =>
    case VelasPote =>
    case EscaldaPes =>
    case Spray1L =>
    case Spray500 =>
    case Spray250 =>
    case Spray100 =>
    case Spray60 =>
    case Spray30 =>
    case SprayPadrao =>
    case Outros =>
  }

  /** The label tests of the source (`"SPRAY" in classe`, `"ESCALDA" in classe`) pick out
      exactly the spray categories and the foot soak. */
  lemma LabelTests(c: Category)
    ensures Contains(c.Label(), "SPRAY") <==> c.IsSpray()
    ensures Contains(c.Label(), "ESCALDA") <==> c == EscaldaPes
  {
    if c.IsSpray() {
      SprayLabelTests(c);
    } else if c == EscaldaPes {
      EscaldaLabelTests(c.Label());
    } else {
      OtherLabelTests(c);
    }
  }

  lemma EscaldaLabelTests(l: string)
    requires l == EscaldaPes.Label()
    ensures !Contains(l, "SPRAY") && Contains(l, "ESCALDA")
  {
    EscaldaLabelChars(l);
    NotContainsMissingChar(l, "SPRAY", 4);
    ContainsAt(l, "ESCALDA", 3);
  }

  // The facts about single label literals are kept in lemmas of their own, one literal
  // each, so that no proof has to evaluate several literals at once.

  lemma EscaldaLabelChars(l: string)
    requires l == EscaldaPes.Label()
    ensures 'Y' !in l && l[3..10] == "ESCALDA"
  {
  }

  lemma OtherLabelTests(c: Category)
    requires !c.IsSpray() && c != EscaldaPes
    ensures !Contains(c.Label(), "SPRAY") && !Contains(c.Label(), "ESCALDA")
  {
    match c
    case MiniVelas => MiniVelasLabelChars(c.Label()); LacksSprayAndEscalda(c.Label());
    case VelasPote => VelasPoteLabelChars(c.Label()); LacksSprayAndEscalda(c.Label());
    case Outros => OutrosLabelChars(c.Label()); LacksSprayAndEscalda(c.Label());
  }

  lemma MiniVelasLabelChars(l: string)
    requires l == MiniVelas.Label()
    ensures 'Y' !in l && 'C' !in l
  {
  }

  lemma VelasPoteLabelChars(l: string)
    requires l == VelasPote.Label()
    ensures 'Y' !in l && 'C' !in l
  {
  }

  lemma OutrosLabelChars(l: string)
    requires l == Outros.Label()
    ensures 'Y' !in l && 'C' !in l
  {
  }

  /** A label without 'Y' and without 'C' contains neither "SPRAY" nor "ESCALDA". */
  lemma LacksSprayAndEscalda(l: string)
    requires 'Y' !in l && 'C' !in l
    ensures !Contains(l, "SPRAY") && !Contains(l, "ESCALDA")
  {
    NotContainsMissingChar(l, "SPRAY", 4);
    NotContainsMissingChar(l, "ESCALDA", 2);
  }

  lemma SprayLabelTests(c: Category)
    requires c.IsSpray()
    ensures Contains(c.Label(), "SPRAY") && !Contains(c.Label(), "ESCALDA")
  {
    match c
    case Spray1L => SprayLabel("1 LITRO");
    case Spray500 => SprayLabel("500ML");
    case Spray250 => SprayLabel("250ML");
    case Spray100 => SprayLabel("100ML");
    case Spray60 => SprayLabel("60ML");
    case Spray30 => SprayLabel("30ML");
    case SprayPadrao => SprayLabel("PADRÃO");
  }

  /** A spray label is "4. HOME SPRAY - " followed by the size. */
  lemma SprayLabel(size: string)
    requires 'C' !in size
    ensures Contains(SprayPrefix + size, "SPRAY") && !Contains(SprayPrefix + size, "ESCALDA")
  {
    var l := SprayPrefix + size;
    SprayPrefixFacts(SprayPrefix);
    assert SprayPrefix == l[..|SprayPrefix|];
    ContainsPrefix(l, SprayPrefix, "SPRAY");
    CharNotInConcat(SprayPrefix, size, 'C');
    LacksEscalda(l);
  }

  /** Text without 'C' cannot contain "ESCALDA". (A lemma of its own so that the spray
      label proof does not read the literal "ESCALDA" beside its own literals.) */
  lemma LacksEscalda(l: string)
    requires 'C' !in l
    ensures !Contains(l, "ESCALDA")
  {
    NotContainsMissingChar(l, "ESCALDA", 2);
  }

  lemma SprayPrefixFacts(p: string)
    requires p == SprayPrefix
    ensures Contains(p, "SPRAY") && 'C' !in p
  {
    assert p[8..13] == "SPRAY";
    ContainsAt(p, "SPRAY", 8);
  }

  lemma CharNotInConcat(a: string, b: string, ch: char)
    requires ch !in a && ch !in b
    ensures ch !in a + b
  {
  }

  /** The classification chain is first-match-wins: each category is chosen exactly when
      its own test holds and no earlier test does; a row matching nothing is filed under
      "99. OUTROS" rather than dropped. Among the sprays the size is chosen the same way:
      one litre, then 500, 250, 100, 60 and 30 ml, else the standard bottle. */
  lemma ClassifyFirstMatch(sku: string, nome: string, texto: string)
    ensures var c := Classify(sku, nome, texto);
      var mini := Contains(sku, "MV") || Contains(nome, "MINI VELA");
      var pote := Contains(sku, "V100") || Contains(nome, "100G") || Contains(nome, "POTE");
      var escalda := Contains(sku, "ES-") || Contains(nome, "ESCALDA");
      var spray := Contains(texto, "SPRAY") || Contains(texto, "CHEIRINHO");
      && (c == MiniVelas <==> mini)
      && (c == VelasPote <==> !mini && pote)
      && (c == EscaldaPes <==> !mini && !pote && escalda)
      && (c.IsSpray() <==> !mini && !pote && !escalda && spray)
      && (c == Outros <==> !mini && !pote && !escalda && !spray)
    ensures var c := Classify(sku, nome, texto);
      var litro := Contains(texto, "1L") || Contains(texto, "1 LITRO");
      c.IsSpray() ==>
        && (c == Spray1L <==> litro)
        && (c == Spray500 <==> !litro && Contains(texto, "500"))
        && (c == Spray250 <==> !litro && !Contains(texto, "500") && Contains(texto, "250"))
        && (c == Spray100 <==> !litro && !Contains(texto, "500") && !Contains(texto, "250")
                               && Contains(texto, "100"))
        && (c == Spray60 <==> !litro && !Contains(texto, "500") && !Contains(texto, "250")
                              && !Contains(texto, "100") && Contains(texto, "60"))
        && (c == Spray30 <==> !litro && !Contains(texto, "500") && !Contains(texto, "250")
                              && !Contains(texto, "100") && !Contains(texto, "60") && Contains(texto, "30"))
        && (c == SprayPadrao <==> !litro && !Contains(texto, "500") && !Contains(texto, "250")
                                  && !Contains(texto, "100") && !Contains(texto, "60") && !Contains(texto, "30"))
  {
  }

  /** re.search finds the count wherever it starts, even inside a longer number. */
  lemma {:induction false} UnitCountAt(texto: string, n: string, i: nat)
    requires i <= |texto| && StartsWith(texto[i..], n + "UN")
    ensures UnitCount(texto, n)
    decreases i
  {
    if i > 0 {
      assert texto[1..][i - 1..] == texto[i..];
      UnitCountAt(texto[1..], n, i - 1);
    }
  }

  /** A text that lacks one of the count's characters has no match. */
  lemma {:induction false} NoUnitCountWithout(texto: string, n: string, j: nat)
    requires j < |n| && n[j] !in texto
    ensures !UnitCount(texto, n)
    decreases |texto|
  {
    if |n + "UN"| <= |texto| {
      assert texto[..|n + "UN"|][j] == texto[j] != n[j];
    }
    if |n| < |texto| {
      assert texto[..|n|][j] == texto[j] != n[j];
    }
    if texto != [] {
      assert forall k :: 0 <= k < |texto[1..]| ==> texto[1..][k] in texto;
      NoUnitCountWithout(texto[1..], n, j);
    }
  }

  /** The multiplier is one of the eight values of the chain; 2 only for sprays sold as
      "2UN", 8 only with "2 KIT"; a "20 UN" count outranks everything. */
  lemma MultiplierValues(sku: string, texto: string, c: Category)
    ensures Multiplier(sku, texto, c.Label()) in {1, 2, 3, 4, 5, 8, 10, 20}
    ensures Multiplier(sku, texto, c.Label()) == 2 ==> c.IsSpray() && Contains(texto, "2UN")
    ensures Multiplier(sku, texto, c.Label()) == 8 ==> Contains(texto, "2 KIT")
    ensures UnitCount(texto, "20") ==> Multiplier(sku, texto, c.Label()) == 20
    ensures !c.IsSpray() ==> Multiplier(sku, texto, c.Label()) != 2
  {
    LabelTests(c);
  }

  /** The multiplier chain is first-match-wins: 20, 10 and 5 units, then the four-kit
      (eight with "2 KIT"), then the three-kit, then a spray sold as "2UN", else 1. Each
      value is chosen exactly when its own test holds and no earlier test does. */
  lemma MultiplierFirstMatch(sku: string, texto: string, classe: string)
    ensures var m := Multiplier(sku, texto, classe);
      var units := UnitCount(texto, "20") || UnitCount(texto, "10") || UnitCount(texto, "5");
      var kit4 := Contains(sku, "MVK") || Contains(texto, "KIT 4");
      var kit3 := Contains(sku, "KIT 3");
      var spray2 := Contains(classe, "SPRAY") && Contains(texto, "2UN");
      && (m == 20 <==> UnitCount(texto, "20"))
      && (m == 10 <==> !UnitCount(texto, "20") && UnitCount(texto, "10"))
      && (m == 5 <==> !UnitCount(texto, "20") && !UnitCount(texto, "10") && UnitCount(texto, "5"))
      && (m == 8 <==> !units && kit4 && Contains(texto, "2 KIT"))
      && (m == 4 <==> !units && kit4 && !Contains(texto, "2 KIT"))
      && (m == 3 <==> !units && !kit4 && kit3)
      && (m == 2 <==> !units && !kit4 && !kit3 && spray2)
      && (m == 1 <==> !units && !kit4 && !kit3 && !spray2)
  {
  }

  /** Explicit unit counts outrank kit codes: "10 UN" with "KIT 3" in the SKU gives 10. */
  lemma TenUnitsOutrankKit3(sku: string, texto: string, classe: string)
    requires Contains(sku, "KIT 3") && UnitCount(texto, "10") && !UnitCount(texto, "20")
    ensures Multiplier(sku, texto, classe) == 10
  {
  }

  // The example lemmas below take their sample strings as parameters pinned by a `requires`
  // (`t120 == "120UN"`): the proof then works on one string value and looks the literal up
  // once, which keeps it far cheaper than a literal written out at every use.

  /** With no word boundary in the patterns, "120UN" counts as 20 units and "15 UN" as 5. */
  lemma CountsInsideLongerNumbers(sku: string, classe: string, t120: string, t15: string)
    requires t120 == "120UN" && t15 == "15 UN"
    ensures Multiplier(sku, t120, classe) == 20
    ensures Multiplier(sku, t15, classe) == 5
  {
    assert t120[1..][..4] == "20" + "UN";
    UnitCountAt(t120, "20", 1);
    NoUnitCountWithout(t15, "20", 0);
    NoUnitCountWithout(t15, "10", 1);
    assert t15[1..][..1] == "5" && IsSpace(t15[1..][1]) && t15[1..][2..][..2] == "UN";
    assert UnitCount(t15[1..], "5");
  }

  /** The three expansions: the mixed jar kit credits the raw (unmultiplied) quantity to
      each of its three scents; the assorted foot soak credits a third of the multiplied
      quantity to each; otherwise one item carries the cleaned scent and the multiplied
      quantity. Non-negative quantities stay non-negative. */
  lemma ExpandCases(sku: string, variacao: string, classe: string, qtdPedido: real, qtdTotal: real)
    ensures var e := Expand(sku, variacao, classe, qtdPedido, qtdTotal);
      && (IsMixedJarKit(sku, variacao) ==>
            && |e.items| == 3 && e.stockQty == qtdPedido * 3.0
            && e.items[0].aroma == "Cereja & Avelã" && e.items[1].aroma == "Flor de Cerejeira"
            && e.items[2].aroma == "Brisa do Mar"
            && forall i :: 0 <= i < 3 ==> e.items[i].qtd == qtdPedido)
      && (!IsMixedJarKit(sku, variacao) && IsAssortedFootSoak(classe, variacao) ==>
            && |e.items| == 3 && e.stockQty == qtdTotal
            && e.items[0].aroma == "Lavanda" && e.items[1].aroma == "Alecrim"
            && e.items[2].aroma == "Camomila"
            && forall i :: 0 <= i < 3 ==> e.items[i].qtd * 3.0 == qtdTotal)
      && (!IsMixedJarKit(sku, variacao) && !IsAssortedFootSoak(classe, variacao) ==>
            e.items == [Item(CleanScent(Some(variacao)), qtdTotal)] && e.stockQty == qtdTotal)
      && (qtdPedido >= 0.0 && qtdTotal >= 0.0 ==> forall i :: 0 <= i < |e.items| ==> e.items[i].qtd >= 0.0)
  {
  }

  /** The mixed jar kit "V100-CFB" ordered twice: three jar scents, each credited 2. */
  lemma MixedJarKitExample(sku: string, classe: string, qtdTotal: real)
    requires sku == "V100-CFB"
    ensures Expand(sku, "CERJ/FLOR/BRISA", classe, 2.0, qtdTotal).items
      == [Item("Cereja & Avelã", 2.0), Item("Flor de Cerejeira", 2.0), Item("Brisa do Mar", 2.0)]
  {
    ContainsAt(sku, "V100-CFB", 0);
  }

  /** An assorted foot soak ordered six times: three scents, each credited 2. */
  lemma AssortedFootSoakExample(sku: string, variacao: string)
    requires sku == "ES-MIX" && variacao == "Variado"
    ensures Expand(sku, variacao, EscaldaPes.Label(), 6.0, 6.0).items
      == [Item("Lavanda", 2.0), Item("Alecrim", 2.0), Item("Camomila", 2.0)]
  {
    NotContainsMissingChar(sku, "V100-CFB", 0);
    NotContainsMissingChar(sku, "V100", 0);
    LabelTests(EscaldaPes);
    VariadoMatches(variacao);
  }

  lemma VariadoMatches(variacao: string)
    requires variacao == "Variado"
    ensures Contains(Upper(variacao), "VARIADO")
  {
    UpperAscii(variacao);
    assert Upper(variacao)[0..7] == "VARIADO";
    ContainsAt(Upper(variacao), "VARIADO", 0);
  }

  /** The horizon is one of the four values the sidebar offers. */
  lemma HorizonValues(filtro: string)
    ensures Horizon(filtro) in {1, 3, 7, 9999}
    ensures Contains(filtro, "URGENTE") ==> Horizon(filtro) == 1
  {
  }

  /** The four options of the sidebar radio map to no limit, 1, 3 and 7 days. Each lemma
      takes the option as a parameter equal to its constant, so that the proof reasons about
      one string value rather than re-reading the literal at every step. */
  lemma HorizonNoLimit(tudo: string)
    requires tudo == ChoiceAll
    ensures Horizon(tudo) == 9999
  {
    ChoiceAllChars(tudo);
    NotContainsMissingChar(tudo, "URGENTE", 2);
    NotContainsMissingChar(tudo, "3 Dias", 0);
    NotContainsMissingChar(tudo, "Semana", 5);
  }

  /** "TUDO (Sem limites)" has no 'G' (of "URGENTE"), no '3' and no 'a' (of "Semana"). */
  lemma ChoiceAllChars(tudo: string)
    requires tudo == ChoiceAll
    ensures 'G' !in tudo && '3' !in tudo && 'a' !in tudo
  {
    forall i | 0 <= i < |tudo|
      ensures tudo[i] != 'G' && tudo[i] != '3' && tudo[i] != 'a'
    {
    }
  }

  lemma HorizonUrgent(urgente: string)
    requires urgente == ChoiceUrgent
    ensures Horizon(urgente) == 1
  {
    assert urgente[2..9] == "URGENTE";
    ContainsAt(urgente, "URGENTE", 2);
  }

  lemma HorizonThreeDays(tres: string)
    requires tres == ChoiceThreeDays
    ensures Horizon(tres) == 3
  {
    ThreeDaysChars(tres);
    NotContainsMissingChar(tres, "URGENTE", 2);
    ContainsAt(tres, "3 Dias", 12);
  }

  lemma ThreeDaysChars(tres: string)
    requires tres == ChoiceThreeDays
    ensures 'G' !in tres && |tres| == 18 && tres[12..18] == "3 Dias"
  {
  }

  lemma HorizonWeek(semana: string)
    requires semana == ChoiceWeek
    ensures Horizon(semana) == 7
  {
    WeekChars(semana);
    NotContainsMissingChar(semana, "URGENTE", 2);
    NotContainsMissingChar(semana, "3 Dias", 0);
    ContainsAt(semana, "Semana", 7);
  }

  lemma WeekChars(semana: string)
    requires semana == ChoiceWeek
    ensures 'G' !in semana && '3' !in semana && |semana| == 13 && semana[7..13] == "Semana"
  {
  }

}

=== FILE: scent.dfy ===
/** limpar_aroma (app.py): turns the free text of an order's variation into the scent name
    that production is grouped by. The cleanup is a fixed list of regular-expression
    substitutions applied one after the other, each deleting what it matches, with
    re.IGNORECASE; then the text is trimmed and tidied. */
module Scent {
  import opened Options
  import opened Text

  /** The name used when no scent can be read from the variation. */
  const Fallback: string := "Padrão / Sortido"

  /** True for the characters the cleanup guarantees to remove. */
  predicate IsMark(c: char) {
    IsAsciiDigit(c) || c == ',' || c == '.' || c == '+'
  }

  ghost predicate NoMarks(s: string) {
    forall i :: 0 <= i < |s| ==> !IsMark(s[i])
  }

  /** \w of Python's re on a str: alphanumeric or underscore. Exact on Latin-1 and on the
      four letters that re.IGNORECASE relates to ASCII ones (İ ı ſ and the Kelvin sign). */
  predicate IsWordChar(c: char) {
    || ('a' <= c <= 'z') || ('A' <= c <= 'Z') || ('0' <= c <= '9') || c == '_'
    || c == '\U{AA}' || c == '\U{B2}' || c == '\U{B3}' || c == '\U{B5}'
    || c == '\U{B9}' || c == '\U{BA}' || ('\U{BC}' <= c <= '\U{BE}')
    || ('\U{C0}' <= c <= '\U{FF}' && c != '\U{D7}' && c != '\U{F7}')
    || c == '\U{130}' || c == '\U{131}' || c == '\U{17F}' || c == '\U{212A}'
  }

  /** re.IGNORECASE comparison of a text character c with a pattern character p: an ASCII
      letter matches both of its cases, and i, s and k also match İ/ı, ſ and the Kelvin sign. */
  predicate FoldEq(c: char, p: char) {
    if 'a' <= p <= 'z' then
      || c == p || c == (p as int - 32) as char
      || (p == 'i' && (c == '\U{130}' || c == '\U{131}'))
      || (p == 's' && c == '\U{17F}')
      || (p == 'k' && c == '\U{212A}')
    else c == p
  }

  /** The pattern p (written in lower case) occurs in s at position i, ignoring case. */
  predicate FoldedAt(s: string, i: nat, p: string) {
    i + |p| <= |s| && forall k :: 0 <= k < |p| ==> FoldEq(s[i + k], p[k])
  }

  /** \b at position k of s: exactly one of the characters around k is a word character. */
  predicate Boundary(s: string, k: nat) {
    (0 < k <= |s| && IsWordChar(s[k - 1])) != (k < |s| && IsWordChar(s[k]))
  }

  /** re.sub of a literal pattern with re.IGNORECASE, on s from position i: every
      non-overlapping occurrence, scanning from the left, is deleted. */
  function RemoveFolded(s: string, p: string, i: nat): (r: string)
    requires p != [] && i <= |s|
    ensures CharsFrom(r, s)
    decreases |s| - i
  {
    if i == |s| then []
    else if FoldedAt(s, i, p) then RemoveFolded(s, p, i + |p|)
    else [s[i]] + RemoveFolded(s, p, i + 1)
  }

  /** The end of the run of digits that starts at k (\d+ is greedy). */
  function DigitsEnd(s: string, k: nat): (e: nat)
    requires k <= |s|
    ensures k <= e <= |s| && (e == |s| || !IsAsciiDigit(s[e]))
    ensures forall j :: k <= j < e ==> IsAsciiDigit(s[j])
    decreases |s| - k
  {
    if k < |s| && IsAsciiDigit(s[k]) then DigitsEnd(s, k + 1) else k
  }

  /** The alternation (ml|L|Litro|un|unidades|kits|kit), in its order, in lower case. */
  const UnitWords: seq<string> := ["ml", "l", "litro", "un", "unidades", "kits", "kit"]

  /** The first alternative that matches at k and is followed by \b (the regex backtracks
      into the alternation until the trailing \b holds); the end of that match. */
  function UnitEnd(s: string, k: nat, units: seq<string>): (e: Option<nat>)
    requires k <= |s|
    requires forall u <- units :: u != []
    ensures e.Some? ==> k < e.value <= |s| && Boundary(s, e.value)
  {
    if units == [] then None
    else if (assert units[0] in units; FoldedAt(s, k, units[0]) && Boundary(s, k + |units[0]|)) then Some(k + |units[0]|)
    else (assert forall u <- units[1..] :: u in units; UnitEnd(s, k, units[1..]))
  }

  /** A match of \b\d+\s?(ml|L|Litro|un|unidades|kits|kit)\b that starts at i: its end.
      Backtracking cannot shorten the digits or drop the optional space, since no
      alternative starts with a digit or a space, so the match is determined by i. */
  function UnitTokenAt(s: string, i: nat): (e: Option<nat>)
    requires i <= |s|
    ensures e.Some? ==> i < e.value <= |s|
    ensures e.Some? ==> Boundary(s, i) && IsAsciiDigit(s[i]) && Boundary(s, e.value)
  {
    if i < |s| && IsAsciiDigit(s[i]) && Boundary(s, i) then
      var d := DigitsEnd(s, i);
      var k := if d < |s| && IsSpace(s[d]) then d + 1 else d;
      UnitEnd(s, k, UnitWords)
    else None
  }

  /** re.sub of the unit-token pattern on s from position i. Boundaries are read on the
      original text, as the regex engine does. */
  function RemoveUnitTokens(s: string, i: nat): (r: string)
    requires i <= |s|
    ensures CharsFrom(r, s)
    decreases |s| - i
  {
    if i == |s| then []
    else match UnitTokenAt(s, i)
      case Some(e) => RemoveUnitTokens(s, e)
      case None => [s[i]] + RemoveUnitTokens(s, i + 1)
  }

  /** re.sub(r"[0-9]", "", s) */
  function RemoveDigits(s: string): (r: string)
    ensures CharsFrom(r, s)
    ensures forall i :: 0 <= i < |r| ==> !IsAsciiDigit(r[i])
  {
    if s == [] then []
    else if IsAsciiDigit(s[0]) then RemoveDigits(s[1..])
    else [s[0]] + RemoveDigits(s[1..])
  }

  /** Removing the digits keeps every other character as often as it occurs. */
  lemma {:induction false} RemoveDigitsCounts(s: string)
    ensures forall c :: !IsAsciiDigit(c) ==> multiset(RemoveDigits(s))[c] == multiset(s)[c]
    decreases |s|
  {
    if s != [] {
      RemoveDigitsCounts(s[1..]);
      assert s == [s[0]] + s[1..];
    }
  }

  /** re.sub of a one-character literal (",", "\.", "\+"). */
  function RemoveChar(s: string, c: char): (r: string)
    ensures CharsFrom(r, s)
    ensures c !in r
  {
    if s == [] then []
    else if s[0] == c then RemoveChar(s[1..], c)
    else [s[0]] + RemoveChar(s[1..], c)
  }

  /** Removing c deletes all of its occurrences and nothing else. */
  lemma {:induction false} RemoveCharCounts(s: string, c: char)
    ensures multiset(RemoveChar(s, c)) == multiset(s)[c := 0]
    decreases |s|
  {
    if s != [] {
      RemoveCharCounts(s[1..], c);
      assert s == [s[0]] + s[1..];
    }
  }

  /** The kinds of pattern in the cleanup list. */
  datatype Pattern = Folded(text: string) | UnitToken | Digit | Literal(c: char)

  /** The list `padroes`, in its order. */
  const Patterns: seq<Pattern> := [
    Folded("(1 unidade)"), Folded("(1 un)"), Folded("(1)"),
    UnitToken,
    Digit, Literal(','), Literal('.'), Literal('+')
  ]

  /** One re.sub(p, "", s, flags=re.IGNORECASE). */
  function Sub(p: Pattern, s: string): (r: string)
    ensures CharsFrom(r, s)
    ensures p.Digit? ==> forall i :: 0 <= i < |r| ==> !IsAsciiDigit(r[i])
    ensures p.Literal? ==> p.c !in r
  {
    match p
    case Folded(t) => if t == [] then s else RemoveFolded(s, t, 0)
    case UnitToken => RemoveUnitTokens(s, 0)
    case Digit => RemoveDigits(s)
    case Literal(c) => RemoveChar(s, c)
  }

  // Every pass of the pattern list only deletes: what it returns is its input with some
  // characters taken out and the rest in their order.

  lemma {:induction false} RemoveFoldedDeletes(s: string, p: string, i: nat)
    requires p != [] && i <= |s|
    ensures Subsequence(RemoveFolded(s, p, i), s[i..])
    decreases |s| - i
  {
    if i < |s| {
      if FoldedAt(s, i, p) {
        RemoveFoldedDeletes(s, p, i + |p|);
        SubsequenceSkip(RemoveFolded(s, p, i), s, i, i + |p|);
      } else {
        RemoveFoldedDeletes(s, p, i + 1);
        assert s[i..][1..] == s[i + 1..];
      }
    }
  }

  lemma {:induction false} RemoveUnitTokensDeletes(s: string, i: nat)
    requires i <= |s|
    ensures Subsequence(RemoveUnitTokens(s, i), s[i..])
    decreases |s| - i
  {
    if i < |s| {
      match UnitTokenAt(s, i)
      case Some(e) =>
        RemoveUnitTokensDeletes(s, e);
        SubsequenceSkip(RemoveUnitTokens(s, i), s, i, e);
      case None =>
        RemoveUnitTokensDeletes(s, i + 1);
        assert s[i..][1..] == s[i + 1..];
    }
  }

  lemma {:induction false} RemoveDigitsDeletes(s: string)
    ensures Subsequence(RemoveDigits(s), s)
    decreases |s|
  {
    if s != [] {
      RemoveDigitsDeletes(s[1..]);
    }
  }

  lemma {:induction false} RemoveCharDeletes(s: string, c: char)
    ensures Subsequence(RemoveChar(s, c), s)
    decreases |s|
  {
    if s != [] {
      RemoveCharDeletes(s[1..], c);
    }
  }

  /** One re.sub(p, "", s) deletes characters of s and keeps the others in order. */
  lemma SubDeletes(p: Pattern, s: string)
    ensures Subsequence(Sub(p, s), s)
  {
    match p
    case Folded(t) =>
      if t == [] {
        SubsequenceRefl(s);
      } else {
        RemoveFoldedDeletes(s, t, 0);
        assert s[0..] == s;
      }
    case UnitToken =>
      RemoveUnitTokensDeletes(s, 0);
      assert s[0..] == s;
    case Digit => RemoveDigitsDeletes(s);
    case Literal(c) => RemoveCharDeletes(s, c);
  }

  /** The digit pattern and the one-character patterns delete exactly their own characters:
      every other character keeps its number of occurrences. (Kept out of Sub's contract,
      which every proof about the pattern list would otherwise carry.) */
  lemma SubKeepsRest(p: Pattern, s: string)
    ensures p.Digit? ==> forall c :: !IsAsciiDigit(c) ==> multiset(Sub(p, s))[c] == multiset(s)[c]
    ensures p.Literal? ==> multiset(Sub(p, s)) == multiset(s)[p.c := 0]
  {
    match p
    case Digit => RemoveDigitsCounts(s);
    case Literal(c) => RemoveCharCounts(s, c);
    case _ =>
  }

  /** The loop over `padroes`: each substitution is applied to the previous one's result. */
  function SubAll(ps: seq<Pattern>, s: string): string
  {
    if ps == [] then s else SubAll(ps[1..], Sub(ps[0], s))
  }

  /** The whole loop over `padroes` only deletes: its result is the input with some
      characters taken out and the rest in their order. */
  lemma {:induction false} SubAllDeletes(ps: seq<Pattern>, s: string)
    ensures Subsequence(SubAll(ps, s), s)
    decreases |ps|
  {
    if ps == [] {
      SubsequenceRefl(s);
    } else {
      SubDeletes(ps[0], s);
      SubAllDeletes(ps[1..], Sub(ps[0], s));
      SubsequenceTrans(SubAll(ps, s), Sub(ps[0], s), s);
    }
  }

  /** Substitutions only delete: a later one never brings back what an earlier one removed,
      so after the whole list every pattern's characters are gone. */
  lemma {:induction false} SubAllRemoves(ps: seq<Pattern>, s: string)
    ensures CharsFrom(SubAll(ps, s), s)
    ensures Digit in ps ==> forall i :: 0 <= i < |SubAll(ps, s)| ==> !IsAsciiDigit(SubAll(ps, s)[i])
    ensures forall c :: Literal(c) in ps ==> c !in SubAll(ps, s)
  {
    if ps != [] {
      var t := Sub(ps[0], s);
      SubAllRemoves(ps[1..], t);
      assert SubAll(ps, s) == SubAll(ps[1..], t);
      forall c | Literal(c) in ps
        ensures c !in SubAll(ps, s)
      {
        if ps[0] != Literal(c) {
          assert Literal(c) in ps[1..];
        }
      }
      if Digit in ps && ps[0] != Digit {
        assert Digit in ps[1..];
      }
    }
  }

  /** Text free of the marks stays free of them under any step that only keeps or copies
      its characters. */
  lemma NoMarksKept(r: string, s: string)
    requires NoMarks(s) && CharsFrom(r, s)
    ensures NoMarks(r)
  {
    forall i | 0 <= i < |r|
      ensures !IsMark(r[i])
    {
      var j :| 0 <= j < |s| && s[j] == r[i];
    }
  }

  /** After the substitution list no digit, ',', '.' or '+' is left. */
  lemma PatternsRemoveMarks(a: string)
    ensures NoMarks(SubAll(Patterns, a))
  {
    SubAllRemoves(Patterns, a);
    assert Digit == Patterns[4] && Literal(',') == Patterns[5];
    assert Literal('.') == Patterns[6] && Literal('+') == Patterns[7];
  }

  /** The text after the conjunction rewrite, the substitutions and the final tidying
      (before the fallback is chosen). */
  function Cleanup(t: string): (r: string)
    ensures Trimmed(r) && NoMarks(r)
  {
    var a := ReplaceAll(ReplaceAll(t, " e ", " & "), " E ", " & ");
    PatternsRemoveMarks(a);
    TidyKeepsNoMarks(SubAll(Patterns, a));
    Tidy(SubAll(Patterns, a))
  }

  /** The strip, the dropped trailing ")" and the single pass that turns double spaces
      into one. */
  function Tidy(b: string): (r: string)
    ensures Trimmed(r)
  {
    var c := Strip(b);
    var d := if EndsWith(c, ")") then c[..|c| - 1] else c;
    Strip(ReplaceAll(d, "  ", " "))
  }

  /** A replacement whose text has no mark brings none in. */
  lemma ReplaceKeepsNoMarks(s: string, pat: string, rep: string)
    requires pat != [] && NoMarks(s) && NoMarks(rep)
    ensures NoMarks(ReplaceAll(s, pat, rep))
  {
    var r := ReplaceAll(s, pat, rep);
    forall i | 0 <= i < |r|
      ensures !IsMark(r[i])
    {
      if r[i] in s {
        var j :| 0 <= j < |s| && s[j] == r[i];
      } else {
        var j :| 0 <= j < |rep| && rep[j] == r[i];
      }
    }
  }

  /** Dropping the last character keeps a text free of marks. */
  lemma DropLastKeepsNoMarks(c: string)
    requires c != [] && NoMarks(c)
    ensures NoMarks(c[..|c| - 1])
  {
  }

  /** Tidying brings in no character but spaces, so no mark either. */
  lemma TidyKeepsNoMarks(b: string)
    requires NoMarks(b)
    ensures NoMarks(Tidy(b))
  {
    var c := Strip(b);
    NoMarksKept(c, b);
    var d := if EndsWith(c, ")") then c[..|c| - 1] else c;
    if EndsWith(c, ")") {
      DropLastKeepsNoMarks(c);
    }
    var e := ReplaceAll(d, "  ", " ");
    ReplaceKeepsNoMarks(d, "  ", " ");
    NoMarksKept(Strip(e), e);
  }

  /** A text without digits and without "(" gives none of the patterns a match. */
  ghost predicate Plain(s: string) {
    NoMarks(s) && '(' !in s
  }

  lemma {:induction false} RemoveFoldedPlain(s: string, p: string, i: nat)
    requires p != [] && p[0] == '(' && '(' !in s && i <= |s|
    ensures RemoveFolded(s, p, i) == s[i..]
    decreases |s| - i
  {
    if i < |s| {
      assert !FoldedAt(s, i, p) by {
        if i + |p| <= |s| {
          assert !FoldEq(s[i + 0], p[0]);
        }
      }
      RemoveFoldedPlain(s, p, i + 1);
    }
  }

  lemma {:induction false} RemoveUnitTokensPlain(s: string, i: nat)
    requires NoMarks(s) && i <= |s|
    ensures RemoveUnitTokens(s, i) == s[i..]
    decreases |s| - i
  {
    if i < |s| {
      assert !IsMark(s[i]);
      RemoveUnitTokensPlain(s, i + 1);
    }
  }

  lemma {:induction false} RemoveDigitsPlain(s: string)
    requires NoMarks(s)
    ensures RemoveDigits(s) == s
  {
    if s != [] {
      assert !IsMark(s[0]);
      RemoveDigitsPlain(s[1..]);
    }
  }

  lemma {:induction false} RemoveCharAbsent(s: string, c: char)
    requires c !in s
    ensures RemoveChar(s, c) == s
  {
    if s != [] {
      RemoveCharAbsent(s[1..], c);
    }
  }

  /** A list of substitutions that each leave s alone leaves s alone. */
  lemma {:induction false} SubAllFixed(ps: seq<Pattern>, s: string)
    requires forall p <- ps :: Sub(p, s) == s
    ensures SubAll(ps, s) == s
  {
    if ps != [] {
      assert ps[0] in ps;
      assert forall p <- ps[1..] :: p in ps;
      SubAllFixed(ps[1..], s);
    }
  }

  /** On a plain text the whole substitution list is the identity. */
  lemma PatternsOnPlain(s: string)
    requires Plain(s)
    ensures SubAll(Patterns, s) == s
  {
    ParenPatternsInert(s);
    RemoveUnitTokensPlain(s, 0);
    MarkPatternsInert(s);
    SubAllSplit(Patterns, 3, s);
    assert Patterns[3..] == [UnitToken] + Patterns[4..];
  }

  /** A trimmed, plain text with no conjunction " e " and no double space loses only a
      trailing ")" (and the spaces that then end it). */
  lemma {:induction false} CleanupOfPlain(t: string)
    requires Plain(t) && Trimmed(t)
    requires !Contains(t, " e ") && !Contains(t, " E ") && !Contains(t, "  ")
    ensures Cleanup(t) == Strip(if EndsWith(t, ")") then t[..|t| - 1] else t)
  {
    ReplaceAbsent(t, " e ", " & ");
    ReplaceAbsent(t, " E ", " & ");
    PatternsOnPlain(t);
    var d := if EndsWith(t, ")") then t[..|t| - 1] else t;
    assert !Contains(d, "  ") by {
      if Contains(d, "  ") {
        ContainsPrefix(t, d, "  ");
      }
    }
    ReplaceAbsent(d, "  ", " ");
  }

  /** The fallback name is itself a clean name. */
  lemma FallbackIsClean()
    ensures Fallback != [] && Trimmed(Fallback) && NoMarks(Fallback)
  {
    var f := Fallback;
    assert f[0] == 'P' && f[|f| - 1] == 'o';
    forall i | 0 <= i < |f|
      ensures !IsMark(f[i])
    {
    }
  }

  /** limpar_aroma. None stands for a cell value that is not a string. */
  function CleanScent(texto: Option<string>): (r: string)
    ensures r != [] && Trimmed(r) && NoMarks(r)
    ensures texto.None? ==> r == Fallback
    ensures texto.Some? && Cleanup(texto.value) != [] ==> r == Cleanup(texto.value)
    ensures texto.Some? && Cleanup(texto.value) == [] ==> r == Fallback
  {
    FallbackIsClean();
    match texto
    case None => Fallback
    case Some(t) =>
      var e := Cleanup(t);
      if e == [] then Fallback else e
  }

  /** A name that is already clean (plain, trimmed, no conjunction, no double space, no
      ")") comes back unchanged. */
  lemma CleanNameUnchanged(t: string)
    requires t != [] && Plain(t) && Trimmed(t) && ')' !in t
    requires !Contains(t, " e ") && !Contains(t, " E ") && !Contains(t, "  ")
    ensures CleanScent(Some(t)) == t
  {
    CleanupOfPlain(t);
  }

  /** A clean name followed by ")" loses that ")" only; re-cleaning the result removes the
      next one, so limpar_aroma is not idempotent. */
  lemma TrailingParenDropped(n: string)
    requires n != [] && Plain(n) && Trimmed(n)
    requires !Contains(n + ")", " e ") && !Contains(n + ")", " E ") && !Contains(n + ")", "  ")
    ensures CleanScent(Some(n + ")")) == n
  {
    var t := n + ")";
    assert Trimmed(t) && Plain(t);
    CleanupOfPlain(t);
    assert t[..|t| - 1] == n;
  }

  /** No whitespace at all. */
  ghost predicate NoSpace(s: string) {
    forall i :: 0 <= i < |s| ==> !IsSpace(s[i])
  }

  /** The same, for a one-word name. */
  lemma WordParenDropped(n: string)
    requires n != [] && Plain(n) && NoSpace(n)
    ensures CleanScent(Some(n + ")")) == n
  {
    var t := n + ")";
    assert ' ' !in t;
    NotContainsMissingChar(t, " e ", 0);
    NotContainsMissingChar(t, " E ", 0);
    NotContainsMissingChar(t, "  ", 0);
    TrailingParenDropped(n);
  }

  /** limpar_aroma is not idempotent: a one-word name followed by "))" (e.g. "Lavanda))")
      loses one ")" per application. */
  lemma NotIdempotent(n: string)
    requires n != [] && Plain(n) && NoSpace(n)
    ensures CleanScent(Some(n + "))")) == n + ")"
    ensures CleanScent(Some(CleanScent(Some(n + "))")))) == n
    ensures CleanScent(Some(CleanScent(Some(n + "))")))) != CleanScent(Some(n + "))"))
  {
    assert n + "))" == (n + ")") + ")";
    assert Plain(n + ")") && NoSpace(n + ")");
    WordParenDropped(n + ")");
    WordParenDropped(n);
    assert |n + ")"| != |n|;
  }

  /** The unit-token scan copies a stretch without digits unchanged. */
  lemma {:induction false} UnitTokensCopy(s: string, i: nat, j: nat)
    requires i <= j <= |s|
    requires forall k :: i <= k < j ==> !IsAsciiDigit(s[k])
    ensures RemoveUnitTokens(s, i) == s[i..j] + RemoveUnitTokens(s, j)
    decreases j - i
  {
    if i < j {
      UnitTokensCopy(s, i + 1, j);
    }
  }

  /** Running a list of substitutions is running its first k, then the rest. */
  lemma {:induction false} SubAllSplit(ps: seq<Pattern>, k: nat, s: string)
    requires k <= |ps|
    ensures SubAll(ps, s) == SubAll(ps[k..], SubAll(ps[..k], s))
  {
    if k == 0 {
      assert ps[..k] == [] && ps[k..] == ps;
    } else {
      var t := Sub(ps[0], s);
      assert ps[1..][k - 1..] == ps[k..];
      assert ps[..k][0] == ps[0] && ps[..k][1..] == ps[1..][..k - 1];
      assert SubAll(ps[..k], s) == SubAll(ps[1..][..k - 1], t);
      SubAllSplit(ps[1..], k - 1, t);
    }
  }

  /** The text "n d ml" of a one-word name n and a number d. */
  function VolumeText(n: string, d: string): string {
    n + " " + d + "ml"
  }

  ghost predicate IsNumber(d: string) {
    d != [] && forall k :: 0 <= k < |d| ==> IsAsciiDigit(d[k])
  }

  lemma VolumeNoConjunction(n: string, d: string, p: string)
    requires NoSpace(n) && IsNumber(d)
    requires p == " e " || p == " E "
    ensures !Contains(VolumeText(n, d), p)
  {
    var s := VolumeText(n, d);
    var m := |n|;
    forall i: nat
      ensures !OccursAt(s, p, i)
    {
      if i + |p| > |s| {
      } else if i < m {
        assert s[i] == n[i] && !IsSpace(n[i]);
      } else if i == m {
        assert s[i + 1] == d[0];
      } else {
        assert s[i] == (d + "ml")[i - m - 1];
      }
    }
    NotContainsNowhere(s, p);
  }

  /** The unit-token pattern matches the whole of "d ml" after the name. */
  lemma VolumeTokenMatch(n: string, d: string)
    requires NoSpace(n) && IsNumber(d)
    ensures UnitTokenAt(VolumeText(n, d), |n| + 1) == Some(|VolumeText(n, d)|)
  {
    var s := VolumeText(n, d);
    var m := |n|;
    assert s[m] == ' ' && s[m + 1] == d[0];
    assert Boundary(s, m + 1);
    assert forall k :: m + 1 <= k < m + 1 + |d| ==> s[k] == d[k - m - 1];
    assert s[m + 1 + |d|] == 'm' && s[m + 2 + |d|] == 'l';
    var k := m + 1 + |d|;
    assert DigitsEnd(s, m + 1) == k;
    assert !IsSpace(s[k]);
    assert FoldedAt(s, k, "ml") && k + 2 == |s|;
    assert Boundary(s, |s|);
    assert UnitWords[0] == "ml";
    assert UnitEnd(s, k, UnitWords) == Some(|s|);
  }

  /** The unit-token substitution leaves "n " of "n d ml". */
  lemma VolumeTokenRemoved(n: string, d: string)
    requires Plain(n) && NoSpace(n) && IsNumber(d)
    ensures Sub(UnitToken, VolumeText(n, d)) == n + " "
  {
    var s := VolumeText(n, d);
    var m := |n|;
    assert forall k :: 0 <= k < m ==> s[k] == n[k] && !IsMark(n[k]);
    UnitTokensCopy(s, 0, m + 1);
    VolumeTokenMatch(n, d);
    assert s[..m + 1] == n + " ";
  }

  /** The three parenthesised patterns never match a text without "(". */
  lemma ParenPatternsInert(s: string)
    requires '(' !in s
    ensures SubAll(Patterns[..3], s) == s
  {
    RemoveFoldedPlain(s, "(1 unidade)", 0);
    RemoveFoldedPlain(s, "(1 un)", 0);
    RemoveFoldedPlain(s, "(1)", 0);
    SubAllFixed(Patterns[..3], s);
  }

  /** The digit and punctuation patterns never match a text without marks. */
  lemma MarkPatternsInert(u: string)
    requires NoMarks(u)
    ensures SubAll(Patterns[4..], u) == u
  {
    RemoveDigitsPlain(u);
    assert ',' !in u && '.' !in u && '+' !in u by {
      forall i | 0 <= i < |u|
        ensures u[i] != ',' && u[i] != '.' && u[i] != '+'
      {
        assert !IsMark(u[i]);
      }
    }
    RemoveCharAbsent(u, ',');
    RemoveCharAbsent(u, '.');
    RemoveCharAbsent(u, '+');
    var ps := Patterns[4..];
    assert ps == [Digit, Literal(','), Literal('.'), Literal('+')];
    assert Sub(Digit, u) == u && Sub(Literal(','), u) == u;
    assert Sub(Literal('.'), u) == u && Sub(Literal('+'), u) == u;
    SubAllFixed(ps, u);
  }

  lemma VolumePatterns(n: string, d: string)
    requires n != [] && Plain(n) && NoSpace(n) && IsNumber(d)
    ensures SubAll(Patterns, VolumeText(n, d)) == n + " "
  {
    var s := VolumeText(n, d);
    var u := n + " ";
    assert SubAll(Patterns[..3], s) == s by {
      assert '(' !in s by {
        assert forall k :: 0 <= k < |s| ==> s[k] in n || s[k] in d || s[k] in " ml";
      }
      ParenPatternsInert(s);
    }
    SubAllSplit(Patterns, 3, s);
    assert SubAll(Patterns[3..], s) == SubAll(Patterns[4..], Sub(UnitToken, s)) by {
      assert Patterns[3..][0] == UnitToken && Patterns[3..][1..] == Patterns[4..];
    }
    assert Sub(UnitToken, s) == u by {
      VolumeTokenRemoved(n, d);
    }
    assert SubAll(Patterns[4..], u) == u by {
      assert NoMarks(u);
      MarkPatternsInert(u);
    }
  }

  /** A volume written after a one-word name ("Baunilha 250ml") is cut off by the
      unit-token pattern, and the name is what remains. */
  lemma VolumeSuffixRemoved(n: string, d: string)
    requires n != [] && Plain(n) && NoSpace(n) && ')' !in n && IsNumber(d)
    ensures CleanScent(Some(VolumeText(n, d))) == n
  {
    var s := VolumeText(n, d);
    VolumeNoConjunction(n, d, " e ");
    VolumeNoConjunction(n, d, " E ");
    ReplaceAbsent(s, " e ", " & ");
    ReplaceAbsent(s, " E ", " & ");
    VolumePatterns(n, d);
    TidyWordSpace(n);
  }

  /** Tidying a one-word name followed by a space gives the name. */
  lemma TidyWordSpace(n: string)
    requires n != [] && NoSpace(n) && ')' !in n
    ensures Tidy(n + " ") == n
  {
    StripTrailingSpace(n);
    assert ' ' !in n;
    NotContainsMissingChar(n, "  ", 0);
    ReplaceAbsent(n, "  ", " ");
  }
}

=== FILE: text.dfy ===
/** The Python string operations the order engine relies on: str.isspace, str.upper,
    str.strip, the `in` substring test, str.startswith/endswith and str.replace. */
module Text {

  /** str.isspace() for one character: the whitespace set of Python 3 (also what the
      regular-expression class \s matches in a str pattern). */
  predicate IsSpace(c: char) {
    || ('\t' <= c <= '\r')
    || ('\U{1C}' <= c <= '\U{1F}')
    || c == ' ' || c == '\U{85}' || c == '\U{A0}' || c == '\U{1680}'
    || ('\U{2000}' <= c <= '\U{200A}')
    || c == '\U{2028}' || c == '\U{2029}' || c == '\U{202F}' || c == '\U{205F}'
    || c == '\U{3000}'
  }

  predicate IsAsciiDigit(c: char) {
    '0' <= c <= '9'
  }

  /** str.upper() for one character, exact on ASCII and Latin-1; 'ß' becomes "SS". */
  function UpperChar(c: char): (r: string)
    ensures 1 <= |r| <= 2
  {
    if 'a' <= c <= 'z' then [(c as int - 32) as char]
    else if '\U{E0}' <= c <= '\U{FE}' && c != '\U{F7}' then [(c as int - 32) as char]
    else if c == '\U{DF}' then "SS"
    else if c == '\U{B5}' then "\U{39C}"
    else if c == '\U{FF}' then "\U{178}"
    else [c]
  }

  /** str.upper() */
  function Upper(s: string): (r: string)
    ensures |s| <= |r|
  {
    if s == [] then [] else UpperChar(s[0]) + Upper(s[1..])
  }

  /** On ASCII letters str.upper() maps each character on its own: lower case to upper
      case, upper case to itself. */
  lemma {:induction false} UpperAscii(s: string)
    requires forall i :: 0 <= i < |s| ==> 'a' <= s[i] <= 'z' || 'A' <= s[i] <= 'Z'
    ensures |Upper(s)| == |s|
    ensures forall i :: 0 <= i < |s| ==>
      Upper(s)[i] == if 'a' <= s[i] <= 'z' then (s[i] as int - 32) as char else s[i]
  {
    if s != [] {
      UpperAscii(s[1..]);
      assert Upper(s) == UpperChar(s[0]) + Upper(s[1..]);
    }
  }

  /** r is s with some of its characters deleted: the rest keep their order. */
  ghost predicate Subsequence(r: string, s: string)
    decreases |s|
  {
    r == [] || (s != [] && ((r[0] == s[0] && Subsequence(r[1..], s[1..])) || Subsequence(r, s[1..])))
  }

  lemma {:induction false} SubsequenceRefl(s: string)
    ensures Subsequence(s, s)
    decreases |s|
  {
    if s != [] {
      SubsequenceRefl(s[1..]);
    }
  }

  /** Deleting from a text with deletions gives a text with deletions. */
  lemma {:induction false} SubsequenceTrans(a: string, b: string, c: string)
    requires Subsequence(a, b) && Subsequence(b, c)
    ensures Subsequence(a, c)
    decreases |c|
  {
    if a != [] {
      if Subsequence(b, c[1..]) {
        SubsequenceTrans(a, b, c[1..]);
      } else if a[0] == b[0] && Subsequence(a[1..], b[1..]) {
        SubsequenceTrans(a[1..], b[1..], c[1..]);
      } else {
        SubsequenceTrans(a, b[1..], c[1..]);
      }
    }
  }

  /** Skipping more of the text keeps a subsequence one. */
  lemma {:induction false} SubsequenceSkip(r: string, s: string, i: nat, j: nat)
    requires i <= j <= |s| && Subsequence(r, s[j..])
    ensures Subsequence(r, s[i..])
    decreases j - i
  {
    if i < j {
      SubsequenceSkip(r, s, i + 1, j);
      assert s[i..][1..] == s[i + 1..];
    }
  }

  /** The characters of r all occur in s. */
  ghost predicate CharsFrom(r: string, s: string) {
    forall i :: 0 <= i < |r| ==> r[i] in s
  }

  /** s has no leading and no trailing whitespace. */
  ghost predicate Trimmed(s: string) {
    s == [] || (!IsSpace(s[0]) && !IsSpace(s[|s| - 1]))
  }

  /** str.lstrip(): drops the longest whitespace prefix. */
  function TrimLeft(s: string): (r: string)
    ensures |r| <= |s| && r == s[|s| - |r|..]
    ensures r == [] || !IsSpace(r[0])
    ensures forall i :: 0 <= i < |s| - |r| ==> IsSpace(s[i])
  {
    if s != [] && IsSpace(s[0]) then TrimLeft(s[1..]) else s
  }

  /** str.rstrip(): drops the longest whitespace suffix. */
  function TrimRight(s: string): (r: string)
    ensures |r| <= |s| && r == s[..|r|]
    ensures r == [] || !IsSpace(r[|r| - 1])
    ensures forall i :: |r| <= i < |s| ==> IsSpace(s[i])
  {
    if s != [] && IsSpace(s[|s| - 1]) then TrimRight(s[..|s| - 1]) else s
  }

  /** A prefix of a suffix of s takes its characters from s. */
  lemma SliceChars(r: string, l: string, s: string)
    requires |l| <= |s| && l == s[|s| - |l|..]
    requires |r| <= |l| && r == l[..|r|]
    ensures CharsFrom(r, s)
  {
    forall i | 0 <= i < |r|
      ensures r[i] in s
    {
      assert r[i] == l[i];
      assert l[i] == s[|s| - |l| + i];
    }
  }

  /** r is s with a whitespace prefix and a whitespace suffix cut off. */
  ghost predicate SpaceCut(r: string, s: string) {
    exists a, b :: 0 <= a <= b <= |s| && r == s[a..b]
      && (forall i :: 0 <= i < a ==> IsSpace(s[i]))
      && (forall i :: b <= i < |s| ==> IsSpace(s[i]))
  }

  /** A prefix of a suffix of s, cut where the whitespace ends, is a SpaceCut of s. */
  lemma SliceCut(r: string, l: string, s: string)
    requires |l| <= |s| && l == s[|s| - |l|..] && forall i :: 0 <= i < |s| - |l| ==> IsSpace(s[i])
    requires |r| <= |l| && r == l[..|r|] && forall i :: |r| <= i < |l| ==> IsSpace(l[i])
    ensures SpaceCut(r, s)
  {
    var a := |s| - |l|;
    var b := a + |r|;
    assert r == s[a..b];
    forall i | b <= i < |s|
      ensures IsSpace(s[i])
    {
      assert s[i] == l[i - a];
    }
  }

  /** str.strip(): a slice of s with neither leading nor trailing whitespace (StripIsCut
      says which slice). */
  function Strip(s: string): (r: string)
    ensures Trimmed(r)
    ensures CharsFrom(r, s)
    ensures Trimmed(s) ==> r == s
  {
    var l := TrimLeft(s);
    assert Trimmed(s) ==> l == s;
    var r := TrimRight(l);
    assert Trimmed(s) ==> r == l;
    SliceChars(r, l, s);
    r
  }

  /** str.strip() cuts off exactly the leading and the trailing whitespace: what it returns
      is a slice of s, everything before it and everything after it is whitespace. (Kept
      apart from Strip's contract, which every proof mentioning Strip would otherwise carry.) */
  lemma StripIsCut(s: string)
    ensures SpaceCut(Strip(s), s)
  {
    SliceCut(TrimRight(TrimLeft(s)), TrimLeft(s), s);
  }

  /** str.startswith(p) */
  predicate StartsWith(s: string, p: string) {
    |p| <= |s| && s[..|p|] == p
  }

  /** str.endswith(p) */
  predicate EndsWith(s: string, p: string) {
    |p| <= |s| && s[|s| - |p|..] == p
  }

  /** Python's `p in s`: p occurs in s as a contiguous substring. */
  predicate Contains(s: string, p: string)
    decreases |s|
  {
    StartsWith(s, p) || (s != [] && Contains(s[1..], p))
  }

  /** An occurrence of p at a given position is what `p in s` looks for. */
  lemma {:induction false} ContainsAt(s: string, p: string, i: nat)
    requires i + |p| <= |s| && s[i..i + |p|] == p
    ensures Contains(s, p)
    decreases i
  {
    if i > 0 {
      assert s[1..][i - 1..i - 1 + |p|] == p;
      ContainsAt(s[1..], p, i - 1);
    }
  }

  /** A string that lacks one of p's characters does not contain p. */
  lemma {:induction false} NotContainsMissingChar(s: string, p: string, j: nat)
    requires j < |p| && p[j] !in s
    ensures !Contains(s, p)
    decreases |s|
  {
    if |p| <= |s| {
      assert s[..|p|][j] == s[j] != p[j];
    }
    if s != [] {
      assert forall k :: 0 <= k < |s[1..]| ==> s[1..][k] in s;
      NotContainsMissingChar(s[1..], p, j);
    }
  }

  /** str.replace(pat, rep): every non-overlapping occurrence of pat, scanning from the
      left, is replaced by rep. */
  function ReplaceAll(s: string, pat: string, rep: string): (r: string)
    requires pat != []
    ensures forall i :: 0 <= i < |r| ==> r[i] in s || r[i] in rep
    decreases |s|
  {
    if |s| < |pat| then s
    else if s[..|pat|] == pat then rep + ReplaceAll(s[|pat|..], pat, rep)
    else [s[0]] + ReplaceAll(s[1..], pat, rep)
  }

  /** str.replace changes nothing when the pattern does not occur. */
  lemma {:induction false} ReplaceAbsent(s: string, pat: string, rep: string)
    requires pat != [] && !Contains(s, pat)
    ensures ReplaceAll(s, pat, rep) == s
    decreases |s|
  {
    if |s| >= |pat| {
      ReplaceAbsent(s[1..], pat, rep);
    }
  }

  /** What a prefix contains, the whole string contains. */
  lemma {:induction false} ContainsPrefix(s: string, t: string, p: string)
    requires |t| <= |s| && t == s[..|t|] && Contains(t, p)
    ensures Contains(s, p)
    decreases |t|
  {
    if StartsWith(t, p) {
      assert s[0..|p|] == p;
      ContainsAt(s, p, 0);
    } else {
      ContainsPrefix(s[1..], t[1..], p);
    }
  }

  /** Conversely, `p in s` gives a position where p occurs. */
  lemma {:induction false} ContainsWitness(s: string, p: string) returns (i: nat)
    requires Contains(s, p)
    ensures i + |p| <= |s| && s[i..i + |p|] == p
    decreases |s|
  {
    if StartsWith(s, p) {
      i := 0;
    } else {
      var j := ContainsWitness(s[1..], p);
      assert s[1..][j..j + |p|] == s[j + 1..j + 1 + |p|];
      i := j + 1;
    }
  }

  /** p occurs in s at position i. */
  predicate OccursAt(s: string, p: string, i: nat) {
    i + |p| <= |s| && s[i..i + |p|] == p
  }

  /** A string in which p occurs at no position does not contain p. */
  lemma {:induction false} NotContainsNowhere(s: string, p: string)
    requires forall i: nat :: !OccursAt(s, p, i)
    ensures !Contains(s, p)
    decreases |s|
  {
    assert !OccursAt(s, p, 0);
    if s != [] {
      forall i: nat
        ensures !OccursAt(s[1..], p, i)
      {
        assert !OccursAt(s, p, i + 1);
        if i + |p| <= |s[1..]| {
          assert s[1..][i..i + |p|] == s[i + 1..i + 1 + |p|];
        }
      }
      NotContainsNowhere(s[1..], p);
    }
  }

  /** Stripping a trimmed word followed by a space gives the word back. */
  lemma StripTrailingSpace(n: string)
    requires n != [] && Trimmed(n)
    ensures Strip(n + " ") == n
  {
    TrimLeftKeeps(n + " ");
    TrimRightSpace(n);
  }

  lemma TrimLeftKeeps(s: string)
    requires s != [] && !IsSpace(s[0])
    ensures TrimLeft(s) == s
  {
  }

  lemma TrimRightSpace(n: string)
    requires n != [] && Trimmed(n)
    ensures TrimRight(n + " ") == n
  {
    var s := n + " ";
    assert s[..|s| - 1] == n;
    assert TrimRight(s) == TrimRight(n);
  }
}
